=== FILE: README.md ===
# A verified model of the peer-aware module loader

This project models the core of `lib/loader.js`, an experimental JavaScript
module loader. The loader takes a flat collection of package descriptors, each
with a name, a version, `dependencies`, `peerDependencies` and module files.
It runs modules on demand. To do so it:

- picks, for each declared dependency, the newest package whose version is in
  the declared semver range (`resolvePackage`, `resolveDependencies`);
- gives each package instance a *qualified identity* of the form
  `name@version{peerKey,...}` (`qualifyDependencies`). The peer keys say which
  instance of every peer the package is bound to. A peer that is itself still
  waiting for its peers makes its dependant wait for a later pass. A pass that
  makes no progress is reported as a probable cycle;
- keys every module it runs by `qualifiedName/moduleName` in a per-loader
  cache (`execute`). It strips the peer part to find the package
  (`qualifiedToResolved`), dispatches on the file kind (`package.json`, `.js`,
  `.json`, anything else) and gives scripts a `require` that goes through the
  instance's qualified map.

The Dafny modules follow that structure:

| file | module | what it holds |
|---|---|---|
| `outcomes.dfy` | `Outcomes` | `Option`, `Result`, `LoadError`: one constructor per `throw` site of the loader, plus malformed JSON and an exception from a module's own code |
| `names.dfy` | `Names` | identity stripping, specifier splitting, `basename`/`extname`, file kind |
| `packages.dfy` | `Packages` | descriptors, JavaScript objects as ordered entries, the host services |
| `versions.dfy` | `Versions` | candidate filtering, newest-in-range, `resolveDependencies` |
| `sorting.dfy` | `Sorting` | the collation-ordered worklist |
| `qualifier.dfy` | `Qualifier` | one peer, one entry, one pass, and the fixed-point loop |
| `engine.dfy` | `Engine` | the registry index, `resolvePackageTree`, `require`, `execute` and its cache |
| `scenarios.dfy` | `Scenarios` | worked passes: mutual peers, a simple peer in both orders, a two-level chain |

Services the loader borrows are fields of a `Host` value:

- `semver.satisfies`;
- the `semver.rcompare` order, as a rank on versions;
- `localeCompare`, as a rank on names that no two names share;
- reading `name` and `version` out of a `package.json`;
- `JSON.parse`;
- running a script in a fresh sandbox.

JavaScript objects whose key order matters are sequences of `(key, value)`
entries. `Packages.Lookup` is `obj[k]` and `Packages.Put` is `obj[k] = v`.
JavaScript truthiness of a string slot (`if (key)`, `a || b`) is
`Packages.Truthy`: present and non-empty.

A package with no peers is recorded under `name@version{}`, because the
template `${name}@${version}{${peerKey}}` at `lib/loader.js:177` always adds
the braces. The plain `name@version` appears only when a dependant refers to a
peerless sibling that has not been recorded yet (`lib/loader.js:166`).
`Scenarios.PeerRecordedFirst`, `Scenarios.PeerRecordedLater` and
`Scenarios.OrderChangesKey` show that the key a dependant gets for the same
peer depends on whether that peer sorts before it.

## Model

| member | source | states |
|---|---|---|
| Names.QualifiedToResolved | lib/loader.js:26 | the result is the longest prefix without `{`: it holds no `{` and the input continues with `{` right after it |
| Names.QualifiedToResolvedIdentity | lib/loader.js:26 | a string without `{` is its own resolved identity: splitting at `{` leaves it unchanged |
| Names.QualifiedToResolvedIdempotent | lib/loader.js:26 | stripping an already stripped identity changes nothing |
| Names.QualifiedToResolvedStrips | lib/loader.js:26 | a brace-free head followed by `{...}` strips back to the head |
| Names.SplitSpecifier | lib/loader.js:80-81 | the package part holds no `/`; with a `/` the two parts rejoin to the specifier; without one the module part is empty |
| Names.SplitSpecifierJoin | lib/loader.js:80-81 | splitting `name + "/" + path` returns `(name, path)` for any slash-free name: the inverse of joining |
| Names.SplitSpecifierScoped | lib/loader.js:79-81 | a scoped specifier `@scope/pkg/index.js` is cut at the scope's own slash |
| Names.Join | lib/loader.js:175-177 | an array in a template literal: empty gives `""`, one element gives itself, every element fits inside |
| Names.Basename | lib/loader.js:7 | the result is the slash-free tail of the path, preceded by a `/` when shorter than it |
| Names.Extname | lib/loader.js:8 | the extension is empty, or a proper dot-led suffix of the name with no further dot (it starts at the last dot); it is empty exactly when no dot follows the first character, or the name is `..` |
| Names.ExtnameOfSuffix | lib/loader.js:15-20 | a name has extension `.js` (or `.json`) exactly when it ends with it and something precedes it |
| Names.Classify | lib/loader.js:6-23 | `package.json` by base name first; otherwise script iff the base name ends in `.js` after something, data iff it ends in `.json` after something |
| Names.DotfileIsInert | lib/loader.js:15-16 | a dot-file named `.js` is not run |
| Packages.Lookup | lib/loader.js:139 | a key is found exactly when it is among the keys, and what is found is one of its entries |
| Packages.LookupFinds | lib/loader.js:139 | with distinct keys a lookup returns exactly the entry's value |
| Packages.Put | lib/loader.js:193-195 | the keys grow by the written key only, distinct keys stay distinct, the new pair is present and nothing else is added |
| Versions.Candidates | lib/loader.js:214-217 | a package is a candidate iff it has the name and its version satisfies the range |
| Versions.Newest | lib/loader.js:218 | the chosen candidate is at least as new as every candidate and strictly newer than every earlier one |
| Versions.ResolvePackage | lib/loader.js:199-217 | fails iff no package matches, with the name and range; otherwise a matching package no older than any match; as the stable sort's tie-break, it is the first such among the candidates, and every matching package at least as new as it comes no earlier in the package list |
| Versions.NewestInRange | lib/loader.js:214-218 | a newer version outside the range is never chosen over one inside it |
| Versions.ResolveFrom | lib/loader.js:193-196 | the reduce from position `i` gives distinct keys equal to the declared names, each bound to a package resolved from its range; it fails iff some dependency fails, with the first failure |
| Versions.ResolveDependencies | lib/loader.js:192-197 | the whole reduce: the same guarantees from an empty object |
| Versions.ResolveDependenciesFails | lib/loader.js:205-209 | the only error version selection reports is a missing match |
| Sorting.Insert | lib/loader.js:117-119 | inserting a new name into a name-ordered list keeps it ordered and adds exactly that entry |
| Sorting.SortByName | lib/loader.js:117-119 | the worklist is strictly ascending by collation and a permutation of the entries |
| Qualifier.QualifiedKey | lib/loader.js:177 | the qualified key is the plain identity, then `{`, the comma-joined peer keys and `}`: its length counts exactly those parts, with `{` right after the identity and `}` last |
| Qualifier.QualifiedKeyResolves | lib/loader.js:177 | stripping a qualified key gives back the package's plain identity |
| Qualifier.ResolvePeer | lib/loader.js:139-168 | throws iff the peer is neither a sibling nor truthy in the parent map; defers iff it is a sibling with peers and no recorded key; a key is the recorded, plain or inherited one; the range warning fires iff a sibling's version misses the range |
| Qualifier.EvalPeersThrows | lib/loader.js:135-169 | an entry throws iff some peer throws, and then with the first throwing peer's error |
| Qualifier.EvalPeersKeys | lib/loader.js:135-175 | a deferred entry has a deferred peer; a qualified entry's keys are its peers' keys in declaration order; all peers keyed means qualified |
| Qualifier.Pass | lib/loader.js:125-178 | a pass keeps a sub-list of its worklist |
| Qualifier.PassRecords | lib/loader.js:125-178 | a pass keeps recorded keys unchanged and records exactly the entries it drops |
| Qualifier.PassKeepsKeys | lib/loader.js:166-177 | every recorded key is `name@version{...}` over keys that stand for the entry's peers |
| Qualifier.PassStalls | lib/loader.js:121-124 | a pass that drops nothing records nothing, and then every entry was deferred |
| Qualifier.PassSorted | lib/loader.js:117-125 | the kept entries stay in name order |
| Qualifier.PassFails | lib/loader.js:141-151 | a failing pass names a declared peer that is neither a sibling nor inherited |
| Qualifier.PassFailsWhen | lib/loader.js:135-151 | conversely, a pass over a worklist holding an entry with such a peer fails, whatever the accumulator |
| Qualifier.PassStep | lib/loader.js:123-178 | a pass that does not throw keeps the loop invariant (worklist within the resolved object, names split between worklist and accumulator, sorted, every recorded key well formed); a pass that removes nothing leaves every entry deferred |
| Qualifier.Unqualified | lib/loader.js:182 | one `name@version` per leftover entry, in worklist order |
| Qualifier.StuckWaits | lib/loader.js:156-158 | after a stalled pass every leftover entry waits on a leftover sibling that has peers |
| Qualifier.RankedHasReadyEntry | lib/loader.js:123-187 | when peers can be ranked below their dependants, some leftover entry waits on nothing left over, so the cycle error needs a real cycle |
| Qualifier.Completed | lib/loader.js:189 | once every entry is recorded, the merged map keys every entry well |
| Qualifier.Settled | lib/loader.js:121-179 | the loop as a recursion over passes, ending when a pass throws, the worklist empties or a pass removes nothing: a thrown error is always an unresolvable peer, and the leftover worklist is no longer than the one it started from and holds only entries taken from it |
| Qualifier.Settle | lib/loader.js:121-179 | the `while` loop with its `guard` ends exactly where the recursion `Settled` over passes ends: the same thrown error, or the same accumulator and leftover worklist |
| Qualifier.SettledSound | lib/loader.js:121-179 | what the loop guarantees: a thrown error names an unresolvable peer, and one is thrown whenever the worklist covers an entry with such a peer; otherwise the loop invariant holds at the end and every leftover entry is deferred |
| Qualifier.QualificationSucceeds | lib/loader.js:114-190 | a successful qualification has the parent's keys plus the siblings', keeps the parent's other keys and keys every sibling well |
| Qualifier.QualificationFails | lib/loader.js:141-151 | qualification throws an unresolvable peer exactly when one exists, and its only other error is a probable cycle |
| Qualifier.QualificationStalls | lib/loader.js:180-187 | a cycle report lists the whole sorted worklist the loop ends with, each entry waiting within it, every other sibling recorded with a well-formed key |
| Qualifier.Qualification | lib/loader.js:114-190 | `qualifyDependencies` as a value: it fails only with an unresolvable peer or with a cycle report that names at least one entry, and a success keeps every key of the parent's map |
| Qualifier.QualifyDependencies | lib/loader.js:114-190 | its result is exactly `Qualification`; success: keys are the parent's plus the siblings', inherited keys kept, every sibling well keyed; failure: an unresolvable peer, which is reported whenever one exists, or a cycle report listing the whole non-empty sorted leftover worklist, each entry waiting within it, every other sibling recorded with a well-formed key |
| Engine.BuildIndex | lib/loader.js:38-41 | every package's `name@version` is a key and every key is some package's identity |
| Engine.IndexLastWriterWins | lib/loader.js:38-41 | under each identity sits the last package in the list with that identity |
| Engine.IndexedIsListed | lib/loader.js:38-41 | every indexed package is in the list under its own identity |
| Engine.NewRegistry | lib/loader.js:35-42 | the registry keeps the list and indexes each package under its own identity |
| Engine.PackageTree | lib/loader.js:102-112 | `resolvePackageTree` as a value: it fails only with a version, peer or cycle error; a success means version resolution succeeded, carries its resolved list unchanged, and keeps every key of the parent's map |
| Engine.ResolvePackageTree | lib/loader.js:102-112 | its result is exactly `PackageTree`, and has every guarantee of `TreeOutcome`: resolution errors pass through unchanged; a success keeps the resolved dependencies, has the parent's keys plus the dependencies', keeps inherited keys and keys every dependency well; any other failure is an unresolvable peer, reported exactly when one exists, or the qualifier's full cycle report; in particular both steps succeeding gives a success |
| Engine.PackageTreeSound | lib/loader.js:102-112 | every dependency tree, for every input, has the guarantees of `TreeOutcome` |
| Engine.FirstModule | lib/loader.js:67-73 | none iff no module has that local path; otherwise the first one that has |
| Engine.Require | lib/loader.js:78-94 | fails iff the package part is not truthy in the qualified map, with the specifier; otherwise the mapped instance and the rest of the specifier |
| Engine.RequireJoined | lib/loader.js:80-89 | `require(name + "/" + path)` reaches module `path` of the instance mapped from `name` |
| Engine.Evaluate | lib/loader.js:6-23 | a manifest exports its description or fails as malformed; a script exports what the run gives; data exports the parsed value, or fails as malformed with the file name; anything else exports the empty object |
| Engine.CacheKeyInjective | lib/loader.js:45 | two cache keys with slash-free identities are equal only for equal identities and module paths |
| Engine.LoadResult | lib/loader.js:61-99 | the miss path as a value: a package without a module of that local path never loads, and a success means the tree resolved and a matching module exists |
| Engine.LoadModule | lib/loader.js:61-99 | the miss path once the package is found computes exactly `LoadResult`: the tree's error, a missing module, or the first matching module run under the tree's map; it therefore has the guarantees of `Loaded` |
| Engine.LoadSound | lib/loader.js:61-99 | for every input, `LoadResult` is `Loaded`: a success ran the first matching module under a well-keyed map extending the parent's; a missing module fails with that module and package unless the tree failed first; a failed version resolution is returned unchanged; an unresolvable peer fails the load; and every failure is a tree failure accounted for, a missing module, or the module's own failure when run, so a module that exists under a resolvable tree is run |
| Engine.Execute | lib/loader.js:44-100 | a hit returns the cached value and keeps the cache; a failure keeps the cache; a success stores its value under the key; a missing package fails as not found; a miss on an indexed package gives exactly `LoadResult` for that package, whose meaning `Engine.LoadSound` states |
| Engine.Loader.Run | lib/loader.js:44-100 | the root call with an empty inherited map on the object's own cache: a hit returns the cached value; a failure keeps the cache; a success stores its value; a missing package fails as not found; a miss on an indexed package gives exactly `LoadResult` |
| Scenarios.MutualPeersStall | lib/loader.js:156-158 | two siblings peering on each other are both deferred and nothing is recorded |
| Scenarios.PeerRecordedFirst | lib/loader.js:166-177 | a peerless peer sorted first is recorded first and its recorded key goes into its dependant's key |
| Scenarios.PeerRecordedLater | lib/loader.js:166-177 | sorted after its dependant, the same peer contributes its plain identity |
| Scenarios.OrderChangesKey | lib/loader.js:166 | the two orders give the dependant different keys |
| Scenarios.ChainFirstPass | lib/loader.js:123-178 | in a chain `app` → `plugin` → `c`, the first pass defers `app` and records the other two |
| Scenarios.ChainSecondPass | lib/loader.js:123-178 | the second pass records `app` over `plugin`'s recorded key |

## Left out

- Running a script is the host's `runScript`. It stands for `vm.runInNewContext` and everything a script does, including its nested `require` calls. The recursion `execute` → script → `require` → `execute` is therefore not unfolded. The cache entries that nested calls write are not modelled either.
- Engine.Execute: a failure returns the cache it was given, because nested calls are inside `runScript`. In the source, nested `execute` calls made by a script that later throws have already written their own entries.
- The source writes a dependency's qualified map into the caller's own map object: `Object.assign(parentQualifiedDependencies, ...)` at line 104 mutates its first argument, and the child's `require` reads that same object. The model passes maps as values, so each call sees its own map and the caller's map never changes.
- `console.warn` for a peer outside its range is not a side effect in the model. `Qualifier.ResolvePeer` returns an `outOfRange` flag instead, and the message text is not modelled.
- The sandbox's `__key` field (line 76) and the `filename` option passed to `vm` are not modelled. No loader decision depends on them.
- `Object.prototype.log` (lines 28-31) is a debugging aid. The earlier drafts after line 220 are dead code. Neither is modelled.
- Property lookups that reach `Object.prototype` are not modelled: `key in this.cache`, `this.index[name]` and `resolvedMap[name]` for names such as `constructor`. Objects are modelled by their own keys only.
- JavaScript lists integer-like object keys first. The `dependencies` and `peerDependencies` sequences of a `Package` stand for those objects in `Object.entries` order, integer-like names already first. So the order of the peer keys inside `{...}` and the unresolvable peer that is reported are those of the source. The model departs in one place: the resolved-dependencies object built by `ResolveDependencies`. There `Put` appends a new name at the end, where JavaScript would list an integer-like name first. Nothing reads that order: qualification re-sorts the entries by name, and every other access is a lookup of one distinct name.
- `path.basename` also strips trailing slashes. The model does not, because a module's file name never ends in `/`.
- `localeCompare` is modelled as a strict order: `ValidHost` requires that no two distinct names share a collation rank. The fallback to stable-sort order for names that collate alike is not modelled.
- A `package.json` with no `name` or `version` exports `undefined @ undefined`. The model takes whatever strings the host's `manifest` reads, and a malformed text is an error.
- Qualifier.Pass: its own contract says only that the kept entries are a sub-list. Its properties are stated by the lemmas `PassRecords`, `PassKeepsKeys`, `PassStalls`, `PassSorted`, `PassFails`, `PassFailsWhen` and `PassStep`. Verifying them as one contract is too expensive.
- Names.Join: states only the empty and single-element cases and that every element fits in the result, not the exact text for several elements. The worked scenarios join zero or one key.

=== FILE: engine.dfy ===
/** The `Loader`: its registry index, `resolvePackageTree`, the module-kind
    dispatch, the `require` binding, and `execute` with its cache. */
module Engine {
  import opened Outcomes
  import opened Names
  import opened Packages
  import opened Versions
  import opened Sorting
  import opened Qualifier

  /** The package list and its `name@version` index. */
  datatype Registry = Registry(packages: seq<Package>, index: map<string, Package>)

  /** No later package shares the identity of `packages[i]`. */
  predicate LastWithId(packages: seq<Package>, i: nat)
    requires i < |packages|
  {
    forall j :: i < j < |packages| ==> Id(packages[j]) != Id(packages[i])
  }

  /** The constructor's `reduce`: every package under its identity, a later
      package replacing an earlier one with the same identity. */
  function BuildIndex(packages: seq<Package>): (index: map<string, Package>)
    ensures forall p :: p in packages ==> Id(p) in index
    ensures forall k :: k in index ==> exists i :: 0 <= i < |packages| && Id(packages[i]) == k
  {
    if packages == [] then map[]
    else
      var n := |packages| - 1;
      var init := BuildIndex(packages[..n]);
      assert forall p :: p in packages ==> p in packages[..n] || p == packages[n];
      assert forall i :: 0 <= i < n ==> packages[..n][i] == packages[i];
      var index := init[Id(packages[n]) := packages[n]];
      index
  }

  /** Last writer wins: the package indexed under an identity is the last
      one in the list with that identity. */
  lemma {:induction false} IndexLastWriterWins(packages: seq<Package>, i: nat)
    requires i < |packages| && LastWithId(packages, i)
    ensures Id(packages[i]) in BuildIndex(packages)
    ensures BuildIndex(packages)[Id(packages[i])] == packages[i]
  {
    var n := |packages| - 1;
    var init := BuildIndex(packages[..n]);
    assert BuildIndex(packages) == init[Id(packages[n]) := packages[n]];
    if i < n {
      var prefix := packages[..n];
      assert prefix[i] == packages[i];
      assert LastWithId(prefix, i) by {
        forall j | i < j < n ensures Id(prefix[j]) != Id(prefix[i]) {
          assert prefix[j] == packages[j];
        }
      }
      IndexLastWriterWins(prefix, i);
    }
  }

  /** Every indexed package is in the list under its own identity. */
  lemma IndexedIsListed(packages: seq<Package>, k: string)
    requires k in BuildIndex(packages)
    ensures BuildIndex(packages)[k] in packages && Id(BuildIndex(packages)[k]) == k
  {
    var i :| 0 <= i < |packages| && Id(packages[i]) == k;
    while !LastWithId(packages, i)
      invariant 0 <= i < |packages| && Id(packages[i]) == k
      decreases |packages| - i
    {
      var j :| i < j < |packages| && Id(packages[j]) == k;
      i := j;
    }
    IndexLastWriterWins(packages, i);
  }

  function NewRegistry(packages: seq<Package>): (reg: Registry)
    ensures reg.packages == packages
    ensures forall p :: p in packages ==> Id(p) in reg.index
    ensures forall k :: k in reg.index ==> reg.index[k] in packages && Id(reg.index[k]) == k
  {
    var index := BuildIndex(packages);
    assert forall p :: p in packages ==> Id(p) in index;
    forall k | k in index ensures index[k] in packages && Id(index[k]) == k {
      IndexedIsListed(packages, k);
    }
    Registry(packages, index)
  }

  /** The errors a dependency tree can fail with. */
  predicate TreeError(e: LoadError) {
    e.NoMatchingVersion? || e.UnresolvablePeer? || e.CircularPeers?
  }

  /** `resolvePackageTree` as a value: the resolved dependencies and their
      qualification under the parent's map, with the parent's keys merged
      underneath; the first error thrown otherwise. */
  function PackageTree(reg: Registry, host: Host, dependencies: seq<(string, string)>, parent: map<string, string>)
    : (r: Result<(seq<(string, Package)>, map<string, string>)>)
    requires ValidHost(host)
    ensures r.Failure? ==> r.error.NoMatchingVersion? || r.error.UnresolvablePeer? || r.error.CircularPeers?
    ensures r.Success? ==>
      && ResolveDependencies(reg.packages, dependencies, host).Success?
      && r.value.0 == ResolveDependencies(reg.packages, dependencies, host).value
      && parent.Keys <= r.value.1.Keys
  {
    match ResolveDependencies(reg.packages, dependencies, host)
    case Failure(e) => Failure(e)
    case Success(resolved) =>
      match Qualification(resolved, parent, host)
      case Failure(e) => Failure(e)
      case Success(qualified) => Success((resolved, parent + qualified))
  }

  /** `qualified` is a map a resolved tree may run its modules under: every
      dependency resolved, the parent's other keys kept, and every dependency
      keyed well. */
  ghost predicate Qualifies(reg: Registry, host: Host, dependencies: seq<(string, string)>,
                            parent: map<string, string>, qualified: map<string, string>) {
    && ResolveDependencies(reg.packages, dependencies, host).Success?
    && qualified.Keys == parent.Keys + NamesOf(dependencies)
    && (forall n :: n in parent && n !in NamesOf(dependencies) ==> qualified[n] == parent[n])
    && (forall n :: n in NamesOf(dependencies) ==>
          WellKeyed(ResolveDependencies(reg.packages, dependencies, host).value, parent, qualified, n))
  }

  /** An error a tree may fail with, accounted for: a failed version
      resolution, a peer neither sibling nor inherited, or a cycle report
      covering the whole stalled worklist. */
  ghost predicate TreeFailed(reg: Registry, host: Host, dependencies: seq<(string, string)>,
                             parent: map<string, string>, e: LoadError) {
    var rd := ResolveDependencies(reg.packages, dependencies, host);
    && TreeError(e)
    && (e.NoMatchingVersion? ==> rd.Failure?)
    && (e.UnresolvablePeer? ==> rd.Success? && Unresolvable(rd.value, parent, e))
    && (e.CircularPeers? ==>
          && |e.unqualified| > 0
          && rd.Success?
          && exists stuck: seq<(string, Package)>, recorded: map<string, string> ::
               Stalled(rd.value, parent, host, stuck, recorded, e))
  }

  /** What a dependency tree guarantees: a failed version resolution is
      returned unchanged; a success holds the resolved dependencies and a map
      that `Qualifies`; every failure is accounted for, and an unresolvable
      peer is reported whenever one exists. */
  ghost predicate TreeOutcome(reg: Registry, host: Host, dependencies: seq<(string, string)>, parent: map<string, string>,
                              r: Result<(seq<(string, Package)>, map<string, string>)>) {
    var rd := ResolveDependencies(reg.packages, dependencies, host);
    && (rd.Failure? ==> r == Failure(rd.error))
    && (r.Success? ==> rd.Success? && r.value.0 == rd.value && Qualifies(reg, host, dependencies, parent, r.value.1))
    && (r.Failure? ==> TreeFailed(reg, host, dependencies, parent, r.error))
    && (rd.Success? ==> HasUnresolvablePeer(rd.value, parent) ==> r.Failure? && r.error.UnresolvablePeer?)
  }

  /** Every dependency tree has the guarantees of `TreeOutcome`. */
  lemma PackageTreeSound(reg: Registry, host: Host, dependencies: seq<(string, string)>, parent: map<string, string>)
    requires ValidHost(host)
    ensures TreeOutcome(reg, host, dependencies, parent, PackageTree(reg, host, dependencies, parent))
  {
    var rd := ResolveDependencies(reg.packages, dependencies, host);
    if rd.Failure? {
      ResolveDependenciesFails(reg.packages, dependencies, host);
    } else {
      var resolved := rd.value;
      var q := Qualification(resolved, parent, host);
      QualificationFails(resolved, parent, host);
      if q.Success? {
        QualifiedTreeBuilt(reg, host, dependencies, parent);
      } else {
        QualifiedTreeFailed(reg, host, dependencies, parent);
      }
    }
  }

  /** A successful qualification gives a map that `Qualifies`. */
  lemma QualifiedTreeBuilt(reg: Registry, host: Host, dependencies: seq<(string, string)>, parent: map<string, string>)
    requires ValidHost(host)
    requires ResolveDependencies(reg.packages, dependencies, host).Success?
    requires Qualification(ResolveDependencies(reg.packages, dependencies, host).value, parent, host).Success?
    ensures Qualifies(reg, host, dependencies, parent,
                      parent + Qualification(ResolveDependencies(reg.packages, dependencies, host).value, parent, host).value)
  {
    var resolved := ResolveDependencies(reg.packages, dependencies, host).value;
    var q := Qualification(resolved, parent, host).value;
    QualificationSucceeds(resolved, parent, host);
    UnionAbsorbed(parent, q);
    assert parent + q == q;
  }

  /** Merging a map into one that already has all of its keys changes nothing. */
  lemma UnionAbsorbed(a: map<string, string>, b: map<string, string>)
    requires a.Keys <= b.Keys
    ensures a + b == b
  {
  }

  /** A failed qualification is accounted for. */
  lemma QualifiedTreeFailed(reg: Registry, host: Host, dependencies: seq<(string, string)>, parent: map<string, string>)
    requires ValidHost(host)
    requires ResolveDependencies(reg.packages, dependencies, host).Success?
    requires Qualification(ResolveDependencies(reg.packages, dependencies, host).value, parent, host).Failure?
    ensures TreeFailed(reg, host, dependencies, parent,
                       Qualification(ResolveDependencies(reg.packages, dependencies, host).value, parent, host).error)
  {
    var resolved := ResolveDependencies(reg.packages, dependencies, host).value;
    var q := Qualification(resolved, parent, host);
    QualificationFails(resolved, parent, host);
    if q.error.CircularPeers? {
      QualificationStalls(resolved, parent, host);
      var s := Settled(resolved, parent, host, map[], SortByName(host, resolved));
      assert Stalled(resolved, parent, host, s.value.1, s.value.0, q.error);
    }
  }

  /** `resolvePackageTree`: resolve the declared dependencies, qualify them
      under the parent's map, and merge the parent's keys underneath. */
  method ResolvePackageTree(reg: Registry, host: Host, dependencies: seq<(string, string)>, parent: map<string, string>)
    returns (r: Result<(seq<(string, Package)>, map<string, string>)>)
    requires ValidHost(host)
    ensures r == PackageTree(reg, host, dependencies, parent)
    ensures TreeOutcome(reg, host, dependencies, parent, r)
  {
    PackageTreeSound(reg, host, dependencies, parent);
    var resolved := ResolveDependencies(reg.packages, dependencies, host);
    if resolved.Failure? {
      return Failure(resolved.error);
    }
    var qualified, stuck, recorded := QualifyDependencies(resolved.value, parent, host);
    if qualified.Failure? {
      return Failure(qualified.error);
    }
    // `Object.assign(parent, qualified)`: `qualified` already holds every key of `parent`.
    var merged := parent + qualified.value;
    return Success((resolved.value, merged));
  }

  /** Position of the first module whose `local` path is `local`. */
  function FirstModule(modules: seq<ModuleFile>, local: string): (r: Option<nat>)
    ensures r.None? <==> forall m :: m in modules ==> m.local != local
    ensures r.Some? ==>
      && r.value < |modules| && modules[r.value].local == local
      && forall j :: 0 <= j < r.value ==> modules[j].local != local
  {
    if modules == [] then None
    else if modules[0].local == local then Some(0)
    else
      match FirstModule(modules[1..], local)
      case None =>
        assert forall m :: m in modules ==> m == modules[0] || m in modules[1..];
        None
      case Some(i) =>
        assert forall j :: 1 <= j <= i ==> modules[j] == modules[1..][j - 1];
        Some(i + 1)
  }

  /** The sandbox's `require`: the package part of the specifier must be a
      dependency of the current instance; the answer is the instance and
      module path that `execute` is called on next. */
  function Require(qualified: map<string, string>, specifier: string): (r: Result<(string, string)>)
    ensures r.Failure? <==> !Truthy(qualified, SplitSpecifier(specifier).0)
    ensures r.Failure? ==> r.error == ImportNotFound(specifier)
    ensures r.Success? ==> r.value.0 == qualified[SplitSpecifier(specifier).0]
    ensures r.Success? && '/' in specifier ==> SplitSpecifier(specifier).0 + "/" + r.value.1 == specifier
    ensures r.Success? && '/' !in specifier ==> r.value.1 == ""
  {
    var (packageName, moduleName) := SplitSpecifier(specifier);
    if Truthy(qualified, packageName) then Success((qualified[packageName], moduleName))
    else Failure(ImportNotFound(specifier))
  }

  /** `require("name/path")` reaches module `path` of the instance keyed by `name`. */
  lemma RequireJoined(qualified: map<string, string>, packageName: string, moduleName: string)
    requires '/' !in packageName && Truthy(qualified, packageName)
    ensures Require(qualified, packageName + "/" + moduleName) == Success((qualified[packageName], moduleName))
  {
    SplitSpecifierJoin(packageName, moduleName);
  }

  /** The top-level `execute` helper: run a module according to its kind and
      return what ends up in `module.exports`. */
  function Evaluate(host: Host, file: ModuleFile, qualified: map<string, string>): (r: Result<Value>)
    ensures Classify(file.filename) == Inert ==> r == Success(EmptyExports)
    ensures Classify(file.filename) == Manifest ==>
      match host.manifest(file.content)
      case None => r == Failure(MalformedJson(file.filename))
      case Some(nv) => r == Success(Text(nv.0 + " @ " + nv.1))
    ensures Classify(file.filename) == JsonData ==>
      r == (match host.parseJson(file.content)
            case None => Failure(MalformedJson(file.filename))
            case Some(v) => Success(v))
    ensures Classify(file.filename) == Script ==> r == host.runScript(file, qualified)
  {
    match Classify(file.filename)
    case Manifest =>
      (match host.manifest(file.content)
       case None => Failure(MalformedJson(file.filename))
       case Some(nv) => Success(Text(nv.0 + " @ " + nv.1)))
    case Script => host.runScript(file, qualified)
    case JsonData =>
      (match host.parseJson(file.content)
       case None => Failure(MalformedJson(file.filename))
       case Some(v) => Success(v))
    case Inert => Success(EmptyExports)
  }

  /** `${qualifiedName}/${moduleName}`. */
  function CacheKey(qualifiedName: string, moduleName: string): string {
    qualifiedName + "/" + moduleName
  }

  /** Cache keys of slash-free identities never collide. */
  lemma CacheKeyInjective(q1: string, m1: string, q2: string, m2: string)
    requires '/' !in q1 && '/' !in q2
    requires CacheKey(q1, m1) == CacheKey(q2, m2)
    ensures q1 == q2 && m1 == m2
  {
    SplitSpecifierJoin(q1, m1);
    SplitSpecifierJoin(q2, m2);
  }

  /** A successful load of `moduleName` from `pkg`: the first module with that
      local path found, and `r` what it gives when run under a map that
      `Qualifies`. */
  ghost predicate RanModule(reg: Registry, host: Host, pkg: Package, moduleName: string,
                            parent: map<string, string>, r: Result<Value>) {
    && FirstModule(pkg.modules, moduleName).Some?
    && exists qualified: map<string, string> ::
         && Qualifies(reg, host, pkg.dependencies, parent, qualified)
         && Evaluate(host, pkg.modules[FirstModule(pkg.modules, moduleName).value], qualified) == r
  }

  /** What loading `moduleName` from the found package `pkg` gives: a success
      is a `RanModule`; a missing module fails with that module and package
      unless the tree failed first; a failed version resolution is returned
      unchanged; an unresolvable peer fails the load; and every failure is one
      of those, a stalled qualification, or the module's own failure when run. */
  ghost predicate Loaded(reg: Registry, host: Host, pkg: Package, packageId: string,
                         moduleName: string, parent: map<string, string>, r: Result<Value>) {
    && (r.Success? ==> RanModule(reg, host, pkg, moduleName, parent, r))
    && (FirstModule(pkg.modules, moduleName).None? ==>
          r.Failure? && (TreeError(r.error) || r.error == ModuleNotFound(moduleName, packageId)))
    && (ResolveDependencies(reg.packages, pkg.dependencies, host).Failure? ==>
          r == Failure(ResolveDependencies(reg.packages, pkg.dependencies, host).error))
    && (ResolveDependencies(reg.packages, pkg.dependencies, host).Success? ==>
          HasUnresolvablePeer(ResolveDependencies(reg.packages, pkg.dependencies, host).value, parent) ==>
            r.Failure? && r.error.UnresolvablePeer?)
    && (r.Failure? ==> LoadFailed(reg, host, pkg, packageId, moduleName, parent, r))
  }

  /** Every failure of a load is accounted for: a tree failure, a missing
      module, or the module's own failure when run. */
  ghost predicate LoadFailed(reg: Registry, host: Host, pkg: Package, packageId: string,
                             moduleName: string, parent: map<string, string>, r: Result<Value>)
    requires r.Failure?
  {
    || TreeFailed(reg, host, pkg.dependencies, parent, r.error)
    || (FirstModule(pkg.modules, moduleName).None? && r.error == ModuleNotFound(moduleName, packageId))
    || RanModule(reg, host, pkg, moduleName, parent, r)
  }

  /** The miss path of `Loader.execute` once the package is found, as a value:
      the tree's error, or the first module with that local path run under the
      tree's map, or a missing module. */
  function LoadResult(reg: Registry, host: Host, pkg: Package, packageId: string,
                      moduleName: string, parent: map<string, string>): (r: Result<Value>)
    requires ValidHost(host)
    ensures FirstModule(pkg.modules, moduleName).None? ==> r.Failure?
    ensures r.Success? ==> PackageTree(reg, host, pkg.dependencies, parent).Success? && FirstModule(pkg.modules, moduleName).Some?
  {
    match PackageTree(reg, host, pkg.dependencies, parent)
    case Failure(e) => Failure(e)
    case Success(tree) =>
      match FirstModule(pkg.modules, moduleName)
      case None => Failure(ModuleNotFound(moduleName, packageId))
      case Some(i) => Evaluate(host, pkg.modules[i], tree.1)
  }

  /** A tree failure is a load failure. */
  lemma TreeFailureLoaded(reg: Registry, host: Host, pkg: Package, packageId: string,
                          moduleName: string, parent: map<string, string>, e: LoadError)
    requires TreeOutcome(reg, host, pkg.dependencies, parent, Failure(e))
    ensures Loaded(reg, host, pkg, packageId, moduleName, parent, Failure(e))
  {
    assert LoadFailed(reg, host, pkg, packageId, moduleName, parent, Failure(e));
  }

  /** Every load has the guarantees of `Loaded`: in particular, once the tree
      resolves and the module exists, the module is run under the tree's map. */
  lemma LoadSound(reg: Registry, host: Host, pkg: Package, packageId: string,
                  moduleName: string, parent: map<string, string>)
    requires ValidHost(host)
    ensures Loaded(reg, host, pkg, packageId, moduleName, parent, LoadResult(reg, host, pkg, packageId, moduleName, parent))
  {
    PackageTreeSound(reg, host, pkg.dependencies, parent);
    var tree := PackageTree(reg, host, pkg.dependencies, parent);
    if tree.Failure? {
      TreeFailureLoaded(reg, host, pkg, packageId, moduleName, parent, tree.error);
    } else {
      TreeSuccessLoaded(reg, host, pkg, packageId, moduleName, parent, tree.value);
    }
  }

  /** Under a resolved tree, a load is a missing module or the module run. */
  lemma TreeSuccessLoaded(reg: Registry, host: Host, pkg: Package, packageId: string,
                          moduleName: string, parent: map<string, string>,
                          tree: (seq<(string, Package)>, map<string, string>))
    requires ValidHost(host)
    requires PackageTree(reg, host, pkg.dependencies, parent) == Success(tree)
    requires Qualifies(reg, host, pkg.dependencies, parent, tree.1)
    requires !HasUnresolvablePeer(ResolveDependencies(reg.packages, pkg.dependencies, host).value, parent)
    ensures Loaded(reg, host, pkg, packageId, moduleName, parent, LoadResult(reg, host, pkg, packageId, moduleName, parent))
  {
    var r := LoadResult(reg, host, pkg, packageId, moduleName, parent);
    if FirstModule(pkg.modules, moduleName).None? {
      assert LoadFailed(reg, host, pkg, packageId, moduleName, parent, r);
    } else {
      assert Qualifies(reg, host, pkg.dependencies, parent, tree.1);
      assert RanModule(reg, host, pkg, moduleName, parent, r);
    }
  }

  /** The miss path of `Loader.execute` once the package is found: its
      dependency tree qualified, the module found and run. */
  method LoadModule(reg: Registry, host: Host, pkg: Package, packageId: string,
                    moduleName: string, parent: map<string, string>)
    returns (r: Result<Value>)
    requires ValidHost(host)
    ensures r == LoadResult(reg, host, pkg, packageId, moduleName, parent)
    ensures Loaded(reg, host, pkg, packageId, moduleName, parent, r)
  {
    LoadSound(reg, host, pkg, packageId, moduleName, parent);
    var tree := ResolvePackageTree(reg, host, pkg.dependencies, parent);
    if tree.Failure? {
      return Failure(tree.error);
    }
    var qualified := tree.value.1;
    var found := FirstModule(pkg.modules, moduleName);
    if found.None? {
      return Failure(ModuleNotFound(moduleName, packageId));
    }
    r := Evaluate(host, pkg.modules[found.value], qualified);
  }

  /** `Loader.execute` on an explicit cache: a hit returns the stored value;
      otherwise the package is looked up by its stripped identity, its
      dependency tree qualified, the module found and run, and only then is
      the value stored. Every failure leaves the cache as it was. */
  method Execute(reg: Registry, host: Host, cache: map<string, Value>,
                 qualifiedName: string, moduleName: string, parent: map<string, string>)
    returns (r: Result<Value>, cache': map<string, Value>)
    requires ValidHost(host)
    ensures CacheKey(qualifiedName, moduleName) in cache ==>
      r == Success(cache[CacheKey(qualifiedName, moduleName)]) && cache' == cache
    ensures cache' == (if r.Success? then cache[CacheKey(qualifiedName, moduleName) := r.value] else cache)
    ensures CacheKey(qualifiedName, moduleName) !in cache && QualifiedToResolved(qualifiedName) !in reg.index ==>
      r == Failure(PackageNotFound(qualifiedName))
    ensures CacheKey(qualifiedName, moduleName) !in cache && r.Success? ==> QualifiedToResolved(qualifiedName) in reg.index
    ensures CacheKey(qualifiedName, moduleName) !in cache && QualifiedToResolved(qualifiedName) in reg.index ==>
      r == LoadResult(reg, host, reg.index[QualifiedToResolved(qualifiedName)], QualifiedToResolved(qualifiedName),
                      moduleName, parent)
  {
    var key := CacheKey(qualifiedName, moduleName);
    if key in cache {
      return Success(cache[key]), cache;
    }
    var resolvedName := QualifiedToResolved(qualifiedName);
    if resolvedName !in reg.index {
      return Failure(PackageNotFound(qualifiedName)), cache;
    }
    r := LoadModule(reg, host, reg.index[resolvedName], resolvedName, moduleName, parent);
    cache' := if r.Success? then cache[key := r.value] else cache;
  }

  /** A `Loader` instance: a fixed registry and a cache that lives as long as it does. */
  class Loader {
    const registry: Registry
    const host: Host
    var cache: map<string, Value>

    constructor(packages: seq<Package>, host: Host)
      requires ValidHost(host)
      ensures registry == NewRegistry(packages) && this.host == host && cache == map[]
    {
      registry := NewRegistry(packages);
      this.host := host;
      cache := map[];
    }

    /** The root entry point `execute(qualifiedName, moduleName)`: no inherited map. */
    method Run(qualifiedName: string, moduleName: string) returns (r: Result<Value>)
      requires ValidHost(host)
      modifies this
      ensures CacheKey(qualifiedName, moduleName) in old(cache) ==>
        r == Success(old(cache)[CacheKey(qualifiedName, moduleName)]) && cache == old(cache)
      ensures r.Failure? ==> cache == old(cache)
      ensures r.Success? ==> cache == old(cache)[CacheKey(qualifiedName, moduleName) := r.value]
      ensures CacheKey(qualifiedName, moduleName) !in old(cache) && QualifiedToResolved(qualifiedName) !in registry.index ==>
        r == Failure(PackageNotFound(qualifiedName))
      ensures CacheKey(qualifiedName, moduleName) !in old(cache) && QualifiedToResolved(qualifiedName) in registry.index ==>
        r == LoadResult(registry, host, registry.index[QualifiedToResolved(qualifiedName)], QualifiedToResolved(qualifiedName),
                        moduleName, map[])
    {
      var c;
      r, c := Execute(registry, host, cache, qualifiedName, moduleName, map[]);
      cache := c;
    }
  }
}

=== FILE: names.dfy ===
/** String helpers of the loader: identities, import specifiers and file kinds. */
module Names {

  /** `s.split(c)[0]`: everything before the first occurrence of `c`. */
  function PrefixBefore(s: string, c: char): (r: string)
    ensures c !in r
    ensures r <= s
    ensures |r| < |s| ==> s[|r|] == c
  {
    if s == [] then []
    else if s[0] == c then []
    else [s[0]] + PrefixBefore(s[1..], c)
  }

  /** The concrete `name@version` of a qualified identity: its `{...}` peer part dropped. */
  function QualifiedToResolved(qualifiedName: string): (r: string)
    ensures '{' !in r
    ensures r <= qualifiedName
    ensures |r| < |qualifiedName| ==> qualifiedName[|r|] == '{'
  {
    PrefixBefore(qualifiedName, '{')
  }

  lemma QualifiedToResolvedIdentity(s: string)
    requires '{' !in s
    ensures QualifiedToResolved(s) == s
  {
  }

  lemma QualifiedToResolvedIdempotent(s: string)
    ensures QualifiedToResolved(QualifiedToResolved(s)) == QualifiedToResolved(s)
  {
    QualifiedToResolvedIdentity(QualifiedToResolved(s));
  }

  /** Stripping a bracketed suffix from a bracket-free head gives back the head. */
  lemma QualifiedToResolvedStrips(head: string, tail: string)
    requires '{' !in head
    ensures QualifiedToResolved(head + "{" + tail) == head
  {
    var s := head + "{" + tail;
    assert s[|head|] == '{';
    assert forall i :: 0 <= i < |head| ==> s[i] == head[i];
  }

  /** The split of an import specifier at its first `/`: the package name and the
      module path inside it, `""` when there is no `/`. */
  function SplitSpecifier(specifier: string): (r: (string, string))
    ensures '/' !in r.0
    ensures '/' in specifier ==> r.0 + "/" + r.1 == specifier
    ensures '/' !in specifier ==> r.0 == specifier && r.1 == ""
  {
    var packageName := PrefixBefore(specifier, '/');
    var moduleName := if |packageName| + 1 <= |specifier| then specifier[|packageName| + 1..] else "";
    if '/' !in specifier then
      assert |packageName| == |specifier|;
      (packageName, moduleName)
    else
      assert |packageName| < |specifier|;
      assert packageName + "/" + moduleName == specifier by {
        assert specifier == specifier[..|packageName|] + [specifier[|packageName|]] + specifier[|packageName| + 1..];
      }
      (packageName, moduleName)
  }

  /** Splitting a slash-free package name joined to a module path gives both back. */
  lemma SplitSpecifierJoin(packageName: string, moduleName: string)
    requires '/' !in packageName
    ensures SplitSpecifier(packageName + "/" + moduleName) == (packageName, moduleName)
  {
    var s := packageName + "/" + moduleName;
    assert s[|packageName|] == '/';
    assert forall i :: 0 <= i < |packageName| ==> s[i] == packageName[i];
    assert PrefixBefore(s, '/') == packageName;
    assert s[|packageName| + 1..] == moduleName;
  }

  /** A scoped name such as `@scope/pkg` is cut at its own `/`: the scope alone is
      taken for the package name. */
  lemma SplitSpecifierScoped()
    ensures SplitSpecifier("@scope/pkg/index.js") == ("@scope", "pkg/index.js")
  {
    assert "@scope/pkg/index.js" == "@scope" + "/" + "pkg/index.js";
    SplitSpecifierJoin("@scope", "pkg/index.js");
  }

  /** `String(array)`: the elements joined by commas. */
  function Join(parts: seq<string>): (r: string)
    ensures parts == [] ==> r == ""
    ensures |parts| == 1 ==> r == parts[0]
    ensures forall p :: p in parts ==> |p| <= |r|
  {
    if parts == [] then ""
    else if |parts| == 1 then parts[0]
    else parts[0] + "," + Join(parts[1..])
  }

  /** `path.basename` for a path without a trailing `/`: the text after the last `/`. */
  function Basename(path: string): (r: string)
    ensures '/' !in r
    ensures |r| <= |path| && path[|path| - |r|..] == r
    ensures |r| < |path| ==> path[|path| - |r| - 1] == '/'
  {
    if path == [] then []
    else if path[|path| - 1] == '/' then []
    else Basename(path[..|path| - 1]) + [path[|path| - 1]]
  }

  /** The suffix of `name` starting at its last `.`, or `""` when it has none. */
  function FromLastDot(name: string): (r: string)
    ensures r == "" ==> '.' !in name
    ensures r != "" ==> |r| <= |name| && name[|name| - |r|..] == r && r[0] == '.' && '.' !in r[1..]
  {
    if name == [] then ""
    else if name[|name| - 1] == '.' then "."
    else
      var t := FromLastDot(name[..|name| - 1]);
      if t == "" then ""
      else
        assert name[..|name| - 1][|name| - 1 - |t|..] == t;
        t + [name[|name| - 1]]
  }

  /** `path.extname` of a base name: from the last `.` on, unless that dot starts
      the name (a dot-file) or the name is `..`. */
  function Extname(base: string): (r: string)
    ensures r == "" || (r[0] == '.' && |r| < |base| && base[|base| - |r|..] == r)
    ensures r != "" ==> '.' !in r[1..]
    ensures r == "" <==> |base| <= 1 || '.' !in base[1..] || base == ".."
  {
    var t := FromLastDot(base);
    assert t != "" && |t| < |base| ==>
      base[|base| - |t|] == t[0] == base[1..][|base| - |t| - 1];
    if |t| == |base| || base == ".." then "" else t
  }

  /** How the loader treats a module file when it runs it. */
  datatype ModuleKind =
    | Manifest   // `package.json`: exports a debug description
    | Script     // `.js`: run in a fresh sandbox
    | JsonData   // `.json`: exports the parsed data
    | Inert      // anything else: exports stay the empty object

  predicate EndsWith(s: string, suffix: string) {
    |suffix| <= |s| && s[|s| - |suffix|..] == suffix
  }

  /** A file name ending in `ext`, a dot-led suffix without further dots, has
      that extension exactly when something precedes it. */
  lemma ExtnameOfSuffix(base: string, ext: string)
    requires |ext| >= 2 && ext[0] == '.' && '.' !in ext[1..]
    ensures Extname(base) == ext <==> EndsWith(base, ext) && |base| > |ext|
  {
    var t := FromLastDot(base);
    if EndsWith(base, ext) && |base| > |ext| {
      assert base[|base| - |ext|] == '.';
      assert t != "";
      assert forall i :: 1 <= i < |ext| ==> ext[i] in ext[1..];
      assert t == ext;
    }
  }

  /** The file-kind dispatch: `package.json` first, then `.js`, then `.json`. */
  function Classify(filename: string): (k: ModuleKind)
    ensures k == Manifest <==> Basename(filename) == "package.json"
    ensures k == Script <==> EndsWith(Basename(filename), ".js") && |Basename(filename)| > 3
    ensures k == JsonData <==>
      Basename(filename) != "package.json" && EndsWith(Basename(filename), ".json") && |Basename(filename)| > 5
  {
    var base := Basename(filename);
    ExtnameOfSuffix(base, ".js");
    ExtnameOfSuffix(base, ".json");
    if base == "package.json" then Manifest
    else if Extname(base) == ".js" then Script
    else if Extname(base) == ".json" then JsonData
    else Inert
  }

  /** A dot-file named `.js` is not a script: it has no extension. */
  lemma DotfileIsInert()
    ensures Classify("lib/.js") == Inert
  {
    assert Basename("lib/.js") == ".js";
  }
}

=== FILE: outcomes.dfy ===
/** Failure-carrying values shared by every part of the loader model.

    The loader reports every fatal condition by throwing an `Error`; here
    each such condition is a `LoadError` constructor and an operation that
    may throw returns a `Result`.
 */
module Outcomes {

  datatype Option<+T> = None | Some(value: T)

  /** The fatal conditions of the loader: the first six are the loader's own
      `throw` sites; the last two are exceptions raised outside it, by `JSON.parse`
      and by a module's own code. */
  datatype LoadError =
      /** No registry entry for the stripped identity of a requested package. */
    | PackageNotFound(qualifiedName: string)
      /** No package of that name has a version inside the range. */
    | NoMatchingVersion(name: string, range: string)
      /** The package has no module with the requested local path. */
    | ModuleNotFound(moduleName: string, packageId: string)
      /** A script asked for a package its instance does not depend on. */
    | ImportNotFound(specifier: string)
      /** A peer is neither a sibling dependency nor inherited from the parent. */
    | UnresolvablePeer(peerName: string, peerRange: string)
      /** A qualification pass made no progress; lists every unqualified `name@version`. */
    | CircularPeers(unqualified: seq<string>)
      /** The content of a `.json` module (or a `package.json`) is not well-formed. */
    | MalformedJson(filename: string)
      /** The module's own code threw; only the host's `runScript` reports it. */
    | ScriptFailed(message: string)

  datatype Result<+T> = Success(value: T) | Failure(error: LoadError) {

    predicate IsFailure() {
      Failure?
    }

    function PropagateFailure<U>(): Result<U>
      requires Failure?
    {
      Failure(error)
    }

    function Extract(): T
      requires Success?
    {
      value
    }
  }
}

=== FILE: packages.dfy ===
/** Package descriptors, JavaScript objects as ordered entries, and the
    services the loader borrows from its host. */
module Packages {
  import opened Outcomes

  /** One file of a package: its path on disk, its path relative to the
      package root (`local`), and its text. */
  datatype ModuleFile = ModuleFile(filename: string, local: string, content: string)

  /** A package descriptor. `dependencies` and `peerDependencies` map a
      package name to a semver range; both default to no entries. */
  datatype Package = Package(
    name: string,
    version: string,
    dependencies: seq<(string, string)>,
    peerDependencies: seq<(string, string)>,
    modules: seq<ModuleFile>)

  /** The plain identity `name@version`. */
  function Id(p: Package): string {
    p.name + "@" + p.version
  }

  predicate HasPeers(p: Package) {
    |p.peerDependencies| > 0
  }

  /** The keys of an object, given as its entries in insertion order. */
  function NamesOf<V>(entries: seq<(string, V)>): set<string> {
    set i | 0 <= i < |entries| :: entries[i].0
  }

  lemma NamesOfCons<V>(e: (string, V), entries: seq<(string, V)>)
    ensures NamesOf([e] + entries) == {e.0} + NamesOf(entries)
  {
    var s := [e] + entries;
    assert forall i :: 0 <= i < |entries| ==> s[i + 1] == entries[i];
    assert s[0] == e;
  }

  lemma NamesOfSubset<V>(a: seq<(string, V)>, b: seq<(string, V)>)
    requires forall e :: e in a ==> e in b
    ensures NamesOf(a) <= NamesOf(b)
  {
    forall n | n in NamesOf(a) ensures n in NamesOf(b) {
      var k :| 0 <= k < |a| && a[k].0 == n;
      assert a[k] in b;
    }
  }

  predicate DistinctNames<V>(entries: seq<(string, V)>) {
    forall i, j :: 0 <= i < j < |entries| ==> entries[i].0 != entries[j].0
  }

  /** `object[name]`: the value of the first entry with that key. */
  function Lookup<V>(entries: seq<(string, V)>, name: string): (r: Option<V>)
    ensures r.Some? <==> name in NamesOf(entries)
    ensures r.Some? ==> (name, r.value) in entries
  {
    if entries == [] then None
    else if entries[0].0 == name then Some(entries[0].1)
    else
      NamesOfCons(entries[0], entries[1..]);
      Lookup(entries[1..], name)
  }

  /** With distinct keys an entry is exactly what a lookup finds. */
  lemma {:induction false} LookupFinds<V>(entries: seq<(string, V)>, name: string, v: V)
    requires DistinctNames(entries)
    requires (name, v) in entries
    ensures Lookup(entries, name) == Some(v)
  {
    if entries[0] != (name, v) {
      assert entries[0].0 != name by {
        var k :| 0 <= k < |entries| && entries[k] == (name, v);
        assert k != 0;
      }
      assert (name, v) in entries[1..];
      LookupFinds(entries[1..], name, v);
    }
  }

  /** `object[name] = v`: an existing key keeps its position and takes the new
      value; a new key is appended. */
  function Put<V>(entries: seq<(string, V)>, name: string, v: V): (r: seq<(string, V)>)
    ensures NamesOf(r) == NamesOf(entries) + {name}
    ensures DistinctNames(entries) ==> DistinctNames(r)
    ensures (name, v) in r
    ensures forall e :: e in r ==> e == (name, v) || e in entries
  {
    if entries == [] then [(name, v)]
    else if entries[0].0 == name then
      NamesOfCons(entries[0], entries[1..]);
      NamesOfCons((name, v), entries[1..]);
      [(name, v)] + entries[1..]
    else
      var rest := Put(entries[1..], name, v);
      NamesOfCons(entries[0], entries[1..]);
      NamesOfCons(entries[0], rest);
      [entries[0]] + rest
  }

  /** JavaScript truthiness of `m[k]` for a string-valued object: present and non-empty. */
  predicate Truthy(m: map<string, string>, k: string) {
    k in m && m[k] != ""
  }

  /** A module's exported value. Only the shapes the loader itself builds are
      distinguished; every value made by a script or by `JSON.parse` is opaque. */
  datatype Value =
    | EmptyExports         // the `{}` a module starts with
    | Text(text: string)   // the `name @ version` description of a `package.json`
    | Opaque(handle: nat)  // any other value

  /** The services the loader takes from libraries and the runtime.
      `satisfies(version, range)` stands for `semver.satisfies`. The order of
      `semver.rcompare` is a total preorder on versions and the collation of
      `localeCompare` a strict total order on names; each is given by a rank
      (every such order on a countable set has one). `manifest` reads `name`
      and `version` out of a `package.json` text, `parseJson` stands for
      `JSON.parse`, and `runScript` runs a script in a fresh sandbox whose
      `require` resolves through the given qualified map. */
  datatype Host = Host(
    satisfies: (string, string) -> bool,
    versionRank: string -> real,
    nameRank: string -> real,
    manifest: string -> Option<(string, string)>,
    parseJson: string -> Option<Value>,
    runScript: (ModuleFile, map<string, string>) -> Result<Value>)
  {
    /** `semver.rcompare(a, b) >= 0`: version `a` is not newer than `b`. */
    predicate AtMost(a: string, b: string) {
      versionRank(a) <= versionRank(b)
    }

    /** `a.localeCompare(b) < 0`. */
    predicate Before(a: string, b: string) {
      nameRank(a) < nameRank(b)
    }
  }

  /** The collator ranks no two distinct names alike. */
  ghost predicate ValidHost(host: Host) {
    forall a, b :: a != b ==> host.nameRank(a) != host.nameRank(b)
  }
}

=== FILE: qualifier.dfy ===
/** Peer-dependency qualification (`qualifyDependencies`): a fixed-point
    worklist that gives every resolved dependency a qualified identity
    `name@version{k1,...,kn}` whose braces list the identities of its peers. */
module Qualifier {
  import opened Outcomes
  import opened Names
  import opened Packages
  import opened Sorting

  /** `${pkg.name}@${pkg.version}{${peerKey}}`: the peer keys joined by commas,
      and empty braces for a package without peers. */
  function QualifiedKey(pkg: Package, peerKeys: seq<string>): (k: string)
    ensures |k| == |Id(pkg)| + |Join(peerKeys)| + 2 && k[|Id(pkg)|] == '{' && k[|k| - 1] == '}'
  {
    Id(pkg) + "{" + Join(peerKeys) + "}"
  }

  /** Stripping the peer part of a qualified key gives back the plain identity. */
  lemma QualifiedKeyResolves(pkg: Package, peerKeys: seq<string>)
    requires '{' !in Id(pkg)
    ensures QualifiedToResolved(QualifiedKey(pkg, peerKeys)) == Id(pkg)
  {
    assert QualifiedKey(pkg, peerKeys) == Id(pkg) + "{" + (Join(peerKeys) + "}");
    QualifiedToResolvedStrips(Id(pkg), Join(peerKeys) + "}");
  }

  /** What one declared peer of an entry comes to during a pass. */
  datatype PeerResult =
      /** The peer's identity; `outOfRange` when a sibling's version misses the
          declared range, which only raises a warning. */
    | Key(key: string, outOfRange: bool)
      /** A sibling with peers of its own that has no qualified key yet. */
    | Defer
    | Throw(error: LoadError)

  /** `k` is an identity the peer `p` may contribute: the parent's key for a
      peer that is not a sibling; for a sibling its recorded key, or its plain
      `name@version` when it has no peers of its own. */
  predicate KeyOk(resolved: seq<(string, Package)>, parent: map<string, string>, acc: map<string, string>, p: string, k: string) {
    match Lookup(resolved, p)
    case None => Truthy(parent, p) && k == parent[p]
    case Some(q) => (Truthy(acc, p) && k == acc[p]) || (!HasPeers(q) && k == Id(q))
  }

  /** One peer: sibling first, then the parent map; a peer found in neither throws. */
  function ResolvePeer(resolved: seq<(string, Package)>, parent: map<string, string>, acc: map<string, string>,
                       host: Host, peer: (string, string)): (r: PeerResult)
    ensures r.Throw? <==> Lookup(resolved, peer.0).None? && !Truthy(parent, peer.0)
    ensures r.Throw? ==> r.error == UnresolvablePeer(peer.0, peer.1)
    ensures r.Defer? <==> Lookup(resolved, peer.0).Some? && HasPeers(Lookup(resolved, peer.0).value) && !Truthy(acc, peer.0)
    ensures r.Key? ==> KeyOk(resolved, parent, acc, peer.0, r.key)
    ensures r.Key? && Lookup(resolved, peer.0).Some? && Truthy(acc, peer.0) ==> r.key == acc[peer.0]
    ensures r.Key? ==> (r.outOfRange <==>
      Lookup(resolved, peer.0).Some? && !host.satisfies(Lookup(resolved, peer.0).value.version, peer.1))
  {
    match Lookup(resolved, peer.0)
    case None =>
      if Truthy(parent, peer.0) then Key(parent[peer.0], false)
      else Throw(UnresolvablePeer(peer.0, peer.1))
    case Some(q) =>
      if HasPeers(q) && !Truthy(acc, peer.0) then Defer
      else Key(if Truthy(acc, peer.0) then acc[peer.0] else Id(q), !host.satisfies(q.version, peer.1))
  }

  /** The outcome of mapping every declared peer of one entry. */
  datatype EntryOutcome = Throws(error: LoadError) | Deferred | Qualified(keys: seq<string>)

  /** `Object.entries(pkg.peerDependencies).map(...)` followed by the
      `peers.some(p => p.recurse)` test: the first peer that throws aborts,
      otherwise any deferred peer keeps the entry for another pass. */
  function EvalPeers(resolved: seq<(string, Package)>, parent: map<string, string>, acc: map<string, string>,
                     host: Host, peers: seq<(string, string)>): (r: EntryOutcome)
    ensures r.Throws? ==> r.error.UnresolvablePeer?
  {
    if peers == [] then Qualified([])
    else
      var rest := EvalPeers(resolved, parent, acc, host, peers[1..]);
      match ResolvePeer(resolved, parent, acc, host, peers[0])
      case Throw(e) => Throws(e)
      case Defer =>
        if rest.Throws? then rest else Deferred
      case Key(k, _) =>
        if rest.Qualified? then Qualified([k] + rest.keys) else rest
  }

  /** A throw is the first throwing peer's, and any throwing peer makes the
      entry throw, whatever earlier peers did. */
  lemma {:induction false} EvalPeersThrows(resolved: seq<(string, Package)>, parent: map<string, string>,
                                           acc: map<string, string>, host: Host, peers: seq<(string, string)>)
    ensures var o := EvalPeers(resolved, parent, acc, host, peers);
      o.Throws? ==>
        exists i :: 0 <= i < |peers| && ResolvePeer(resolved, parent, acc, host, peers[i]) == Throw(o.error)
          && forall j :: 0 <= j < i ==> !ResolvePeer(resolved, parent, acc, host, peers[j]).Throw?
    ensures (exists i :: 0 <= i < |peers| && ResolvePeer(resolved, parent, acc, host, peers[i]).Throw?) ==>
      EvalPeers(resolved, parent, acc, host, peers).Throws?
    decreases |peers|
  {
    if peers != [] {
      EvalPeersThrows(resolved, parent, acc, host, peers[1..]);
      assert forall i :: 1 <= i < |peers| ==> peers[i] == peers[1..][i - 1];
    }
  }

  /** A deferral has a deferred peer; qualified keys are the peers' keys in
      declaration order, and an entry whose peers all have keys is qualified. */
  lemma {:induction false} EvalPeersKeys(resolved: seq<(string, Package)>, parent: map<string, string>,
                                         acc: map<string, string>, host: Host, peers: seq<(string, string)>)
    ensures EvalPeers(resolved, parent, acc, host, peers).Deferred? ==>
      exists i :: 0 <= i < |peers| && ResolvePeer(resolved, parent, acc, host, peers[i]).Defer?
    ensures var o := EvalPeers(resolved, parent, acc, host, peers);
      o.Qualified? ==> |o.keys| == |peers| && forall i :: 0 <= i < |peers| ==>
        ResolvePeer(resolved, parent, acc, host, peers[i]).Key? && ResolvePeer(resolved, parent, acc, host, peers[i]).key == o.keys[i]
    ensures (forall i :: 0 <= i < |peers| ==> ResolvePeer(resolved, parent, acc, host, peers[i]).Key?) ==>
      EvalPeers(resolved, parent, acc, host, peers).Qualified?
    decreases |peers|
  {
    if peers != [] {
      EvalPeersKeys(resolved, parent, acc, host, peers[1..]);
      var rest := EvalPeers(resolved, parent, acc, host, peers[1..]);
      assert forall i :: 1 <= i < |peers| ==> peers[i] == peers[1..][i - 1];
      match ResolvePeer(resolved, parent, acc, host, peers[0])
      case Throw(e) =>
      case Defer =>
      case Key(k, _) =>
        if rest.Qualified? {
          var keys := [k] + rest.keys;
          assert forall i :: 1 <= i < |peers| ==> keys[i] == rest.keys[i - 1];
        }
    }
  }

  /** Every peer key stands for its peer, in declaration order. */
  predicate PeerKeysOk(resolved: seq<(string, Package)>, parent: map<string, string>, acc: map<string, string>,
                       peers: seq<(string, string)>, keys: seq<string>) {
    |keys| == |peers| && forall i :: 0 <= i < |keys| ==> KeyOk(resolved, parent, acc, peers[i].0, keys[i])
  }

  /** The recorded key of `n` is `name@version{...}` of its resolved package
      over keys that stand for its peers. */
  ghost predicate WellKeyed(resolved: seq<(string, Package)>, parent: map<string, string>, acc: map<string, string>, n: string) {
    && n in acc
    && Lookup(resolved, n).Some?
    && exists keys :: PeerKeysOk(resolved, parent, acc, Lookup(resolved, n).value.peerDependencies, keys)
         && acc[n] == QualifiedKey(Lookup(resolved, n).value, keys)
  }

  ghost predicate AllWellKeyed(resolved: seq<(string, Package)>, parent: map<string, string>, acc: map<string, string>) {
    forall n :: n in acc ==> WellKeyed(resolved, parent, acc, n)
  }

  /** `acc` grows into `acc'`: no key is dropped and none changes. */
  predicate Extends(acc: map<string, string>, acc': map<string, string>) {
    forall n :: n in acc ==> n in acc' && acc'[n] == acc[n]
  }

  lemma PeerKeysOkGrow(resolved: seq<(string, Package)>, parent: map<string, string>, acc: map<string, string>,
                       acc': map<string, string>, peers: seq<(string, string)>, keys: seq<string>)
    requires Extends(acc, acc')
    requires PeerKeysOk(resolved, parent, acc, peers, keys)
    ensures PeerKeysOk(resolved, parent, acc', peers, keys)
  {
    forall i | 0 <= i < |keys| ensures KeyOk(resolved, parent, acc', peers[i].0, keys[i]) {
      assert KeyOk(resolved, parent, acc, peers[i].0, keys[i]);
    }
  }

  lemma WellKeyedGrow(resolved: seq<(string, Package)>, parent: map<string, string>, acc: map<string, string>,
                      acc': map<string, string>, n: string)
    requires Extends(acc, acc')
    requires WellKeyed(resolved, parent, acc, n)
    ensures WellKeyed(resolved, parent, acc', n)
  {
    var pkg := Lookup(resolved, n).value;
    var keys :| PeerKeysOk(resolved, parent, acc, pkg.peerDependencies, keys) && acc[n] == QualifiedKey(pkg, keys);
    PeerKeysOkGrow(resolved, parent, acc, acc', pkg.peerDependencies, keys);
  }

  lemma AllWellKeyedGrow(resolved: seq<(string, Package)>, parent: map<string, string>, acc: map<string, string>,
                         acc': map<string, string>)
    requires Extends(acc, acc')
    requires AllWellKeyed(resolved, parent, acc)
    requires forall n :: n in acc' && n !in acc ==> WellKeyed(resolved, parent, acc', n)
    ensures AllWellKeyed(resolved, parent, acc')
  {
    forall n | n in acc && n in acc' ensures WellKeyed(resolved, parent, acc', n) {
      WellKeyedGrow(resolved, parent, acc, acc', n);
    }
  }

  /** The state of one pass of the `filter`: the entries it keeps and the
      accumulator it leaves, or the error a peer threw. */
  datatype PassResult = PassFailed(error: LoadError) | PassDone(kept: seq<(string, Package)>, acc: map<string, string>)

  /** A peer that can never be found: neither a sibling nor inherited. */
  ghost predicate Unresolvable(resolved: seq<(string, Package)>, parent: map<string, string>, e: LoadError) {
    exists x, p :: x in resolved && p in x.1.peerDependencies
      && Lookup(resolved, p.0).None? && !Truthy(parent, p.0) && e == UnresolvablePeer(p.0, p.1)
  }

  /** Invariant of the worklist against the resolved object and the accumulator. */
  ghost predicate WorkInv(resolved: seq<(string, Package)>, parent: map<string, string>,
                          acc: map<string, string>, work: seq<(string, Package)>) {
    && DistinctNames(resolved)
    && DistinctNames(work)
    && (forall e :: e in work ==> e in resolved)
    && NamesOf(work) !! acc.Keys
    && AllWellKeyed(resolved, parent, acc)
  }

  /** One pass, in worklist order: an entry whose peers are all keyed is
      recorded in the accumulator at once, so later entries of the same pass
      see it; an entry with a deferred peer is kept. */
  function Pass(resolved: seq<(string, Package)>, parent: map<string, string>, host: Host,
                acc: map<string, string>, work: seq<(string, Package)>): (r: PassResult)
    ensures r.PassDone? ==> |r.kept| <= |work| && forall e :: e in r.kept ==> e in work
    ensures r.PassFailed? ==> r.error.UnresolvablePeer?
    decreases |work|
  {
    if work == [] then PassDone([], acc)
    else
      match EvalPeers(resolved, parent, acc, host, work[0].1.peerDependencies)
      case Throws(e) => PassFailed(e)
      case Deferred =>
        var rest := Pass(resolved, parent, host, acc, work[1..]);
        if rest.PassFailed? then rest else PassDone([work[0]] + rest.kept, rest.acc)
      case Qualified(keys) =>
        Pass(resolved, parent, host, acc[work[0].0 := QualifiedKey(work[0].1, keys)], work[1..])
  }

  lemma NamesOfTail(work: seq<(string, Package)>)
    requires |work| > 0
    ensures NamesOf(work) == {work[0].0} + NamesOf(work[1..])
  {
    NamesOfCons(work[0], work[1..]);
    assert work == [work[0]] + work[1..];
  }

  /** A pass only adds keys, exactly those of the entries it removes. */
  lemma {:induction false} PassRecords(resolved: seq<(string, Package)>, parent: map<string, string>, host: Host,
                                       acc: map<string, string>, work: seq<(string, Package)>)
    requires DistinctNames(work) && NamesOf(work) !! acc.Keys
    requires Pass(resolved, parent, host, acc, work).PassDone?
    ensures var r := Pass(resolved, parent, host, acc, work);
      && DistinctNames(r.kept)
      && Extends(acc, r.acc)
      && r.acc.Keys == acc.Keys + (NamesOf(work) - NamesOf(r.kept))
    decreases |work|
  {
    if work != [] {
      var w := work[0];
      var tail := work[1..];
      NamesOfTail(work);
      assert DistinctNames(tail);
      assert w.0 !in NamesOf(tail);
      match EvalPeers(resolved, parent, acc, host, w.1.peerDependencies)
      case Deferred =>
        PassRecords(resolved, parent, host, acc, tail);
        var rest := Pass(resolved, parent, host, acc, tail);
        NamesOfSubset(rest.kept, tail);
        NamesOfCons(w, rest.kept);
        assert Pass(resolved, parent, host, acc, work) == PassDone([w] + rest.kept, rest.acc);
      case Qualified(keys) =>
        var acc' := acc[w.0 := QualifiedKey(w.1, keys)];
        PassRecords(resolved, parent, host, acc', tail);
        var rest := Pass(resolved, parent, host, acc', tail);
        NamesOfSubset(rest.kept, tail);
        assert Pass(resolved, parent, host, acc, work) == rest;
    }
  }

  /** Recording a qualified entry keeps every recorded key well formed. */
  lemma RecordKeepsKeys(resolved: seq<(string, Package)>, parent: map<string, string>, host: Host,
                        acc: map<string, string>, w: (string, Package), keys: seq<string>)
    requires DistinctNames(resolved) && w in resolved && w.0 !in acc
    requires AllWellKeyed(resolved, parent, acc)
    requires EvalPeers(resolved, parent, acc, host, w.1.peerDependencies) == Qualified(keys)
    ensures AllWellKeyed(resolved, parent, acc[w.0 := QualifiedKey(w.1, keys)])
  {
    var acc' := acc[w.0 := QualifiedKey(w.1, keys)];
    assert Extends(acc, acc');
    LookupFinds(resolved, w.0, w.1);
    EvalPeersKeys(resolved, parent, acc, host, w.1.peerDependencies);
    assert PeerKeysOk(resolved, parent, acc, w.1.peerDependencies, keys) by {
      forall i | 0 <= i < |keys| ensures KeyOk(resolved, parent, acc, w.1.peerDependencies[i].0, keys[i]) {
        assert ResolvePeer(resolved, parent, acc, host, w.1.peerDependencies[i]).Key?;
      }
    }
    PeerKeysOkGrow(resolved, parent, acc, acc', w.1.peerDependencies, keys);
    assert WellKeyed(resolved, parent, acc', w.0);
    AllWellKeyedGrow(resolved, parent, acc, acc');
  }

  /** A pass keeps every recorded key well formed. */
  lemma {:induction false} PassKeepsKeys(resolved: seq<(string, Package)>, parent: map<string, string>, host: Host,
                                         acc: map<string, string>, work: seq<(string, Package)>)
    requires WorkInv(resolved, parent, acc, work)
    requires Pass(resolved, parent, host, acc, work).PassDone?
    ensures AllWellKeyed(resolved, parent, Pass(resolved, parent, host, acc, work).acc)
    decreases |work|
  {
    if work != [] {
      NamesOfTail(work);
      assert forall e :: e in work[1..] ==> e in work;
      match EvalPeers(resolved, parent, acc, host, work[0].1.peerDependencies)
      case Deferred =>
        PassKeepsKeys(resolved, parent, host, acc, work[1..]);
      case Qualified(keys) =>
        var acc' := acc[work[0].0 := QualifiedKey(work[0].1, keys)];
        assert work[0] in resolved;
        RecordKeepsKeys(resolved, parent, host, acc, work[0], keys);
        assert DistinctNames(work[1..]);
        PassKeepsKeys(resolved, parent, host, acc', work[1..]);
    }
  }

  /** A pass that removes nothing changes nothing, and then every entry it
      saw was deferred. */
  lemma {:induction false} PassStalls(resolved: seq<(string, Package)>, parent: map<string, string>, host: Host,
                                      acc: map<string, string>, work: seq<(string, Package)>)
    requires Pass(resolved, parent, host, acc, work).PassDone?
    requires |Pass(resolved, parent, host, acc, work).kept| == |work|
    ensures Pass(resolved, parent, host, acc, work).acc == acc
    ensures forall e :: e in work ==> EvalPeers(resolved, parent, acc, host, e.1.peerDependencies).Deferred?
    decreases |work|
  {
    if work != [] {
      match EvalPeers(resolved, parent, acc, host, work[0].1.peerDependencies)
      case Deferred =>
        PassStalls(resolved, parent, host, acc, work[1..]);
        assert forall e :: e in work ==> e == work[0] || e in work[1..];
      case Qualified(keys) =>
    }
  }

  /** A pass keeps the worklist in name order. */
  lemma {:induction false} PassSorted(resolved: seq<(string, Package)>, parent: map<string, string>, host: Host,
                                      acc: map<string, string>, work: seq<(string, Package)>)
    requires SortedByName(host, work)
    requires Pass(resolved, parent, host, acc, work).PassDone?
    ensures SortedByName(host, Pass(resolved, parent, host, acc, work).kept)
    decreases |work|
  {
    if work != [] {
      match EvalPeers(resolved, parent, acc, host, work[0].1.peerDependencies)
      case Deferred =>
        PassSorted(resolved, parent, host, acc, work[1..]);
        var rest := Pass(resolved, parent, host, acc, work[1..]);
        assert forall k :: 1 <= k < |work| ==> host.Before(work[0].0, work[k].0);
        assert forall e :: e in rest.kept ==> host.Before(work[0].0, e.0) by {
          forall e | e in rest.kept ensures host.Before(work[0].0, e.0) {
            assert e in work[1..];
          }
        }
        SortedCons(host, work[0], rest.kept);
      case Qualified(keys) =>
        PassSorted(resolved, parent, host, acc[work[0].0 := QualifiedKey(work[0].1, keys)], work[1..]);
    }
  }

  /** A pass fails only on a peer that is neither a sibling nor inherited. */
  lemma {:induction false} PassFails(resolved: seq<(string, Package)>, parent: map<string, string>, host: Host,
                                     acc: map<string, string>, work: seq<(string, Package)>)
    requires forall e :: e in work ==> e in resolved
    requires Pass(resolved, parent, host, acc, work).PassFailed?
    ensures Unresolvable(resolved, parent, Pass(resolved, parent, host, acc, work).error)
    decreases |work|
  {
    var pkg := work[0].1;
    assert forall e :: e in work[1..] ==> e in work;
    EvalPeersThrows(resolved, parent, acc, host, pkg.peerDependencies);
    match EvalPeers(resolved, parent, acc, host, pkg.peerDependencies)
    case Throws(e) =>
      var i :| 0 <= i < |pkg.peerDependencies| && ResolvePeer(resolved, parent, acc, host, pkg.peerDependencies[i]) == Throw(e);
      assert work[0] in resolved && pkg.peerDependencies[i] in pkg.peerDependencies;
    case Deferred =>
      PassFails(resolved, parent, host, acc, work[1..]);
    case Qualified(keys) =>
      PassFails(resolved, parent, host, acc[work[0].0 := QualifiedKey(work[0].1, keys)], work[1..]);
  }

  /** Some entry has a peer that is neither a sibling nor inherited. */
  ghost predicate HasUnresolvablePeer(resolved: seq<(string, Package)>, parent: map<string, string>) {
    exists x, p :: x in resolved && p in x.1.peerDependencies && Lookup(resolved, p.0).None? && !Truthy(parent, p.0)
  }

  /** Conversely, a pass over a worklist holding an entry with such a peer fails,
      whatever the accumulator: the throw does not depend on it. */
  lemma {:induction false} PassFailsWhen(resolved: seq<(string, Package)>, parent: map<string, string>, host: Host,
                                         acc: map<string, string>, work: seq<(string, Package)>,
                                         x: (string, Package), p: (string, string))
    requires x in work && p in x.1.peerDependencies
    requires Lookup(resolved, p.0).None? && !Truthy(parent, p.0)
    ensures Pass(resolved, parent, host, acc, work).PassFailed?
    decreases |work|
  {
    var pkg := work[0].1;
    EvalPeersThrows(resolved, parent, acc, host, pkg.peerDependencies);
    if x == work[0] {
      var i :| 0 <= i < |pkg.peerDependencies| && pkg.peerDependencies[i] == p;
      assert ResolvePeer(resolved, parent, acc, host, pkg.peerDependencies[i]).Throw?;
    } else {
      assert x in work[1..];
      match EvalPeers(resolved, parent, acc, host, pkg.peerDependencies)
      case Throws(e) =>
      case Deferred =>
        PassFailsWhen(resolved, parent, host, acc, work[1..], x, p);
      case Qualified(keys) =>
        PassFailsWhen(resolved, parent, host, acc[work[0].0 := QualifiedKey(work[0].1, keys)], work[1..], x, p);
    }
  }

  /** `${name}@${pkg.version}` of every entry still on the worklist. */
  function Unqualified(stuck: seq<(string, Package)>): (r: seq<string>)
    ensures |r| == |stuck|
    ensures forall i :: 0 <= i < |stuck| ==> r[i] == stuck[i].0 + "@" + stuck[i].1.version
  {
    seq(|stuck|, i requires 0 <= i < |stuck| => stuck[i].0 + "@" + stuck[i].1.version)
  }

  /** A stuck entry waits on a stuck sibling that declares peers of its own. */
  ghost predicate WaitsWithin(resolved: seq<(string, Package)>, stuck: seq<(string, Package)>, e: (string, Package)) {
    exists p :: p in e.1.peerDependencies && p.0 in NamesOf(stuck)
      && Lookup(resolved, p.0).Some? && HasPeers(Lookup(resolved, p.0).value)
  }

  /** When a pass has deferred every entry, each one waits on another. */
  lemma StuckWaits(resolved: seq<(string, Package)>, parent: map<string, string>, host: Host,
                   acc: map<string, string>, entries: seq<(string, Package)>)
    requires WorkInv(resolved, parent, acc, entries)
    requires acc.Keys + NamesOf(entries) == NamesOf(resolved)
    requires forall e :: e in entries ==> EvalPeers(resolved, parent, acc, host, e.1.peerDependencies).Deferred?
    ensures forall e :: e in entries ==> WaitsWithin(resolved, entries, e)
  {
    forall e | e in entries ensures WaitsWithin(resolved, entries, e) {
      EvalPeersKeys(resolved, parent, acc, host, e.1.peerDependencies);
      var i :| 0 <= i < |e.1.peerDependencies| && ResolvePeer(resolved, parent, acc, host, e.1.peerDependencies[i]).Defer?;
      var p := e.1.peerDependencies[i];
      assert p.0 in NamesOf(resolved);
      assert p.0 !in acc;
      assert p in e.1.peerDependencies;
    }
  }

  /** Sibling peers that declare peers of their own rank strictly below the
      entries naming them: the peer graph among such entries has no cycle. */
  ghost predicate PeerRanked(resolved: seq<(string, Package)>, rank: string -> nat) {
    forall x, p ::
      (x in resolved && p in x.1.peerDependencies && Lookup(resolved, p.0).Some? && HasPeers(Lookup(resolved, p.0).value))
      ==> rank(p.0) < rank(x.0)
  }

  /** Position of an entry of least rank. */
  function Lowest(entries: seq<(string, Package)>, rank: string -> nat): (m: nat)
    requires |entries| > 0
    ensures m < |entries|
    ensures forall k :: 0 <= k < |entries| ==> rank(entries[m].0) <= rank(entries[k].0)
  {
    if |entries| == 1 then 0
    else
      var m := Lowest(entries[1..], rank);
      assert forall k :: 1 <= k < |entries| ==> entries[k] == entries[1..][k - 1];
      if rank(entries[0].0) <= rank(entries[m + 1].0) then 0 else m + 1
  }

  /** Without a peer cycle some leftover entry waits on nothing left over, so
      a pass cannot defer them all and the circular error never arises. */
  lemma RankedHasReadyEntry(resolved: seq<(string, Package)>, rank: string -> nat, stuck: seq<(string, Package)>)
    requires PeerRanked(resolved, rank)
    requires forall e :: e in stuck ==> e in resolved
    requires |stuck| > 0
    ensures exists e :: e in stuck && !WaitsWithin(resolved, stuck, e)
  {
    var e := stuck[Lowest(stuck, rank)];
    assert forall n :: n in NamesOf(stuck) ==> rank(e.0) <= rank(n);
    assert !WaitsWithin(resolved, stuck, e);
  }

  /** Once every entry is recorded, the merged map keys every entry well. */
  lemma Completed(resolved: seq<(string, Package)>, parent: map<string, string>, acc: map<string, string>)
    requires AllWellKeyed(resolved, parent, acc)
    requires acc.Keys == NamesOf(resolved)
    ensures forall n :: n in NamesOf(resolved) ==> WellKeyed(resolved, parent, parent + acc, n)
  {
    assert Extends(acc, parent + acc);
    forall n | n in NamesOf(resolved) ensures WellKeyed(resolved, parent, parent + acc, n) {
      WellKeyedGrow(resolved, parent, acc, parent + acc, n);
    }
  }

  /** What the loop of `qualifyDependencies` keeps between passes. */
  ghost predicate LoopInv(resolved: seq<(string, Package)>, parent: map<string, string>, host: Host,
                          acc: map<string, string>, work: seq<(string, Package)>) {
    && WorkInv(resolved, parent, acc, work)
    && acc.Keys + NamesOf(work) == NamesOf(resolved)
    && SortedByName(host, work)
  }

  /** A pass that does not throw keeps the loop invariant; one that removes
      nothing leaves every remaining entry deferred. */
  lemma PassStep(resolved: seq<(string, Package)>, parent: map<string, string>, host: Host,
                 acc: map<string, string>, work: seq<(string, Package)>)
    requires LoopInv(resolved, parent, host, acc, work)
    requires Pass(resolved, parent, host, acc, work).PassDone?
    ensures var pass := Pass(resolved, parent, host, acc, work);
      && LoopInv(resolved, parent, host, pass.acc, pass.kept)
      && |pass.kept| <= |work|
      && (|pass.kept| == |work| ==> forall e :: e in pass.kept ==>
            EvalPeers(resolved, parent, pass.acc, host, e.1.peerDependencies).Deferred?)
  {
    var pass := Pass(resolved, parent, host, acc, work);
    PassRecords(resolved, parent, host, acc, work);
    PassKeepsKeys(resolved, parent, host, acc, work);
    PassSorted(resolved, parent, host, acc, work);
    NamesOfSubset(pass.kept, work);
    if |pass.kept| == |work| {
      PassStalls(resolved, parent, host, acc, work);
      assert forall e :: e in pass.kept ==> e in work;
    }
  }

  /** The `while` loop of `qualifyDependencies` as a recursion over passes:
      passes repeat until one throws, the worklist is empty, or a pass removes
      nothing. The result is the thrown error, or the accumulator and the
      worklist the loop ends with. */
  function Settled(resolved: seq<(string, Package)>, parent: map<string, string>, host: Host,
                   acc: map<string, string>, work: seq<(string, Package)>)
    : (r: Result<(map<string, string>, seq<(string, Package)>)>)
    ensures r.Failure? ==> r.error.UnresolvablePeer?
    ensures r.Success? ==> |r.value.1| <= |work| && forall e :: e in r.value.1 ==> e in work
    decreases |work|
  {
    if work == [] then Success((acc, []))
    else
      match Pass(resolved, parent, host, acc, work)
      case PassFailed(e) => Failure(e)
      case PassDone(kept, acc') =>
        if |kept| == |work| then Success((acc', kept)) else Settled(resolved, parent, host, acc', kept)
  }

  /** What the loop guarantees: a thrown error names an unresolvable peer, and
      one is thrown whenever such a peer exists; otherwise the loop invariant
      holds at the end and every leftover entry is deferred. */
  lemma {:induction false} SettledSound(resolved: seq<(string, Package)>, parent: map<string, string>, host: Host,
                                        acc: map<string, string>, work: seq<(string, Package)>)
    requires LoopInv(resolved, parent, host, acc, work)
    ensures Settled(resolved, parent, host, acc, work).Failure? ==>
      Unresolvable(resolved, parent, Settled(resolved, parent, host, acc, work).error)
    ensures HasUnresolvablePeer(resolved, parent) && (forall e :: e in resolved ==> e in work) ==>
      Settled(resolved, parent, host, acc, work).Failure?
    ensures Settled(resolved, parent, host, acc, work).Success? ==>
      var (acc', left) := Settled(resolved, parent, host, acc, work).value;
      && LoopInv(resolved, parent, host, acc', left)
      && forall e :: e in left ==> EvalPeers(resolved, parent, acc', host, e.1.peerDependencies).Deferred?
    decreases |work|
  {
    if work != [] {
      var pass := Pass(resolved, parent, host, acc, work);
      if HasUnresolvablePeer(resolved, parent) && (forall e :: e in resolved ==> e in work) {
        var x, p :| x in resolved && p in x.1.peerDependencies && Lookup(resolved, p.0).None? && !Truthy(parent, p.0);
        PassFailsWhen(resolved, parent, host, acc, work, x, p);
      }
      if pass.PassFailed? {
        PassFails(resolved, parent, host, acc, work);
        assert Settled(resolved, parent, host, acc, work) == Failure(pass.error);
      } else {
        PassStep(resolved, parent, host, acc, work);
        if |pass.kept| < |work| {
          SettledSound(resolved, parent, host, pass.acc, pass.kept);
          assert Settled(resolved, parent, host, acc, work) == Settled(resolved, parent, host, pass.acc, pass.kept);
        } else {
          assert Settled(resolved, parent, host, acc, work) == Success((pass.acc, pass.kept));
        }
      }
    }
  }

  /** The `while` loop itself: `failed` is the thrown error; otherwise `acc`
      and `left` are the accumulator and worklist the loop ends with, exactly
      as `Settled` gives them. */
  method Settle(resolved: seq<(string, Package)>, parent: map<string, string>, host: Host,
                acc0: map<string, string>, work0: seq<(string, Package)>)
    returns (failed: Option<LoadError>, acc: map<string, string>, left: seq<(string, Package)>)
    ensures failed.Some? ==> Settled(resolved, parent, host, acc0, work0) == Failure(failed.value)
    ensures failed.None? ==> Settled(resolved, parent, host, acc0, work0) == Success((acc, left))
  {
    acc, left := acc0, work0;
    var guard := 0;
    while |left| > 0 && guard != |left|
      invariant (if |left| > 0 && guard == |left| then Success((acc, left))
                 else Settled(resolved, parent, host, acc, left)) == Settled(resolved, parent, host, acc0, work0)
      decreases |left| + (if guard == |left| then 0 else 1)
    {
      guard := |left|;
      var pass := Pass(resolved, parent, host, acc, left);
      if pass.PassFailed? {
        return Some(pass.error), acc, left;
      }
      left, acc := pass.kept, pass.acc;
    }
    return None, acc, left;
  }

  /** How the loop ends on a probable cycle: `stuck` is the last worklist, sorted
      and reported in full, every entry waiting on a peer inside it; `recorded`
      is the accumulator left behind, holding a well-formed key for every entry
      that is not stuck. */
  ghost predicate Stalled(resolved: seq<(string, Package)>, parent: map<string, string>, host: Host,
                          stuck: seq<(string, Package)>, recorded: map<string, string>, e: LoadError) {
    && |stuck| > 0
    && e == CircularPeers(Unqualified(stuck))
    && SortedByName(host, stuck)
    && (forall x :: x in stuck ==> x in resolved && WaitsWithin(resolved, stuck, x))
    && recorded.Keys !! NamesOf(stuck)
    && recorded.Keys + NamesOf(stuck) == NamesOf(resolved)
    && AllWellKeyed(resolved, parent, recorded)
  }

  /** `qualifyDependencies` as a value: the resolved entries sorted by name,
      then the loop; leftover entries are reported as a probable cycle, and
      otherwise the recorded keys are laid over the parent's. */
  function Qualification(resolved: seq<(string, Package)>, parent: map<string, string>, host: Host)
    : (r: Result<map<string, string>>)
    requires ValidHost(host)
    requires DistinctNames(resolved)
    ensures r.Failure? ==> r.error.UnresolvablePeer? || (r.error.CircularPeers? && |r.error.unqualified| > 0)
    ensures r.Success? ==> parent.Keys <= r.value.Keys
  {
    match Settled(resolved, parent, host, map[], SortByName(host, resolved))
    case Failure(e) => Failure(e)
    case Success((acc, left)) =>
      if |left| > 0 then Failure(CircularPeers(Unqualified(left))) else Success(parent + acc)
  }

  /** The loop starts from the sorted entries and an empty accumulator. */
  lemma QualificationStarts(resolved: seq<(string, Package)>, parent: map<string, string>, host: Host)
    requires ValidHost(host)
    requires DistinctNames(resolved)
    ensures LoopInv(resolved, parent, host, map[], SortByName(host, resolved))
    ensures forall e :: e in resolved ==> e in SortByName(host, resolved)
  {
    var entries := SortByName(host, resolved);
    NamesOfSubset(entries, resolved);
    NamesOfSubset(resolved, entries);
    SortedDistinct(host, entries);
  }

  /** A successful qualification keys every resolved entry well on top of the
      parent's keys, and keeps the parent's other keys. */
  lemma QualificationSucceeds(resolved: seq<(string, Package)>, parent: map<string, string>, host: Host)
    requires ValidHost(host)
    requires DistinctNames(resolved)
    requires Qualification(resolved, parent, host).Success?
    ensures var q := Qualification(resolved, parent, host).value;
      && q.Keys == parent.Keys + NamesOf(resolved)
      && (forall n :: n in parent && n !in NamesOf(resolved) ==> q[n] == parent[n])
      && (forall n :: n in NamesOf(resolved) ==> WellKeyed(resolved, parent, q, n))
  {
    var entries := SortByName(host, resolved);
    QualificationStarts(resolved, parent, host);
    SettledSound(resolved, parent, host, map[], entries);
    var (acc, left) := Settled(resolved, parent, host, map[], entries).value;
    assert left == [];
    Completed(resolved, parent, acc);
  }

  /** Qualification throws an unresolvable peer exactly when one exists, and
      its only other error is a probable cycle. */
  lemma QualificationFails(resolved: seq<(string, Package)>, parent: map<string, string>, host: Host)
    requires ValidHost(host)
    requires DistinctNames(resolved)
    ensures Qualification(resolved, parent, host).Failure? ==>
      Qualification(resolved, parent, host).error.UnresolvablePeer? || Qualification(resolved, parent, host).error.CircularPeers?
    ensures Qualification(resolved, parent, host).Failure? && Qualification(resolved, parent, host).error.UnresolvablePeer? ==>
      Unresolvable(resolved, parent, Qualification(resolved, parent, host).error)
    ensures HasUnresolvablePeer(resolved, parent) ==>
      Qualification(resolved, parent, host).Failure? && Qualification(resolved, parent, host).error.UnresolvablePeer?
  {
    QualificationStarts(resolved, parent, host);
    SettledSound(resolved, parent, host, map[], SortByName(host, resolved));
  }

  /** A cycle report covers the whole worklist the loop ends with, every entry
      of which waits on a peer inside it. */
  lemma QualificationStalls(resolved: seq<(string, Package)>, parent: map<string, string>, host: Host)
    requires ValidHost(host)
    requires DistinctNames(resolved)
    requires Qualification(resolved, parent, host).Failure? && Qualification(resolved, parent, host).error.CircularPeers?
    ensures var s := Settled(resolved, parent, host, map[], SortByName(host, resolved));
      s.Success? && Stalled(resolved, parent, host, s.value.1, s.value.0, Qualification(resolved, parent, host).error)
  {
    var entries := SortByName(host, resolved);
    QualificationStarts(resolved, parent, host);
    SettledSound(resolved, parent, host, map[], entries);
    var (acc, left) := Settled(resolved, parent, host, map[], entries).value;
    StuckWaits(resolved, parent, host, acc, left);
  }

  /** `qualifyDependencies`: the resolved entries sorted by name, then the loop;
      leftover entries are reported as a probable cycle. `stuck` is the worklist
      the loop ends with, `recorded` the accumulator. */
  method QualifyDependencies(resolved: seq<(string, Package)>, parent: map<string, string>, host: Host)
    returns (r: Result<map<string, string>>, stuck: seq<(string, Package)>, recorded: map<string, string>)
    requires ValidHost(host)
    requires DistinctNames(resolved)
    ensures r == Qualification(resolved, parent, host)
    ensures r.Success? ==> stuck == []
    ensures r.Success? ==> r.value.Keys == parent.Keys + NamesOf(resolved)
    ensures r.Success? ==> forall n :: n in parent && n !in NamesOf(resolved) ==> r.value[n] == parent[n]
    ensures r.Success? ==> forall n :: n in NamesOf(resolved) ==> WellKeyed(resolved, parent, r.value, n)
    ensures r.Failure? ==> r.error.UnresolvablePeer? || r.error.CircularPeers?
    ensures r.Failure? && r.error.UnresolvablePeer? ==> Unresolvable(resolved, parent, r.error)
    ensures HasUnresolvablePeer(resolved, parent) ==> r.Failure? && r.error.UnresolvablePeer?
    ensures r.Failure? && r.error.CircularPeers? ==> Stalled(resolved, parent, host, stuck, recorded, r.error)
  {
    var entries := SortByName(host, resolved);
    var failed, acc, left := Settle(resolved, parent, host, map[], entries);
    QualificationFails(resolved, parent, host);
    if failed.Some? {
      QualificationStarts(resolved, parent, host);
      SettledSound(resolved, parent, host, map[], entries);
      return Failure(failed.value), [], acc;
    }
    if |left| > 0 {
      r := Failure(CircularPeers(Unqualified(left)));
      QualificationStalls(resolved, parent, host);
      return r, left, acc;
    }
    r := Success(parent + acc);
    QualificationSucceeds(resolved, parent, host);
    return r, [], acc;
  }
}

=== FILE: scenarios.dfy ===
/** Small worked instances of one qualification pass. */
module Scenarios {
  import opened Outcomes
  import opened Packages
  import opened Qualifier

  const c := Package("c", "1.0.0", [], [], [])
  const plugin := Package("plugin", "2.0.0", [], [("c", "^1.0.0")], [])
  const left := Package("left", "1.0.0", [], [("right", "^1.0.0")], [])
  const right := Package("right", "1.0.0", [], [("left", "^1.0.0")], [])
  const app := Package("app", "3.0.0", [], [("plugin", "^2.0.0")], [])

  /** `plugin`'s one peer `c`, a sibling without peers: keyed by its recorded
      key once recorded, by its plain identity before. */
  lemma PluginPeers(host: Host, work: seq<(string, Package)>, acc: map<string, string>)
    requires Lookup(work, "c") == Some(c)
    ensures EvalPeers(work, map[], acc, host, plugin.peerDependencies)
      == Qualified([if Truthy(acc, "c") then acc["c"] else Id(c)])
  {
    assert plugin.peerDependencies[1..] == [];
  }

  /** Two siblings naming each other as peers are both deferred and nothing
      is recorded: the pass stalls, which the loop reports as circular. */
  lemma MutualPeersStall(host: Host)
    ensures var work := [("left", left), ("right", right)];
      Pass(work, map[], host, map[], work) == PassDone(work, map[])
  {
    var work := [("left", left), ("right", right)];
    assert Lookup(work, "right") == Some(right);
    assert Lookup(work, "left") == Some(left);
    assert EvalPeers(work, map[], map[], host, left.peerDependencies) == Deferred;
    assert EvalPeers(work, map[], map[], host, right.peerDependencies) == Deferred;
    assert work[1..] == [("right", right)];
    assert Pass(work, map[], host, map[], work[1..]) == PassDone([("right", right)], map[]);
  }

  /** A peer without peers of its own, listed before its dependant, is
      recorded first, so the dependant is keyed by the peer's recorded key. */
  lemma PeerRecordedFirst(host: Host)
    ensures var work := [("c", c), ("plugin", plugin)];
      var cKey := QualifiedKey(c, []);
      Pass(work, map[], host, map[], work)
        == PassDone([], map["c" := cKey, "plugin" := QualifiedKey(plugin, [cKey])])
  {
    var work := [("c", c), ("plugin", plugin)];
    var cKey := QualifiedKey(c, []);
    var acc1 := map["c" := cKey];
    var acc2 := acc1["plugin" := QualifiedKey(plugin, [cKey])];
    assert Lookup(work, "c") == Some(c);
    PluginPeers(host, work, acc1);
    assert work[1..] == [("plugin", plugin)];
    assert [("plugin", plugin)][1..] == [];
    assert Pass(work, map[], host, acc1, [("plugin", plugin)]) == Pass(work, map[], host, acc2, []);
  }

  /** The same two entries in the other order key the dependant by the peer's
      plain identity. */
  lemma PeerRecordedLater(host: Host)
    ensures var work := [("plugin", plugin), ("c", c)];
      Pass(work, map[], host, map[], work)
        == PassDone([], map["plugin" := QualifiedKey(plugin, [Id(c)]), "c" := QualifiedKey(c, [])])
  {
    var work := [("plugin", plugin), ("c", c)];
    var acc1 := map["plugin" := QualifiedKey(plugin, [Id(c)])];
    var acc2 := acc1["c" := QualifiedKey(c, [])];
    assert Lookup(work, "c") == Some(c);
    PluginPeers(host, work, map[]);
    assert work[1..] == [("c", c)];
    assert [("c", c)][1..] == [];
    assert Pass(work, map[], host, acc1, [("c", c)]) == Pass(work, map[], host, acc2, []);
  }

  /** The two orders give `plugin` different keys: the key of an instance
      depends on where its peers fall in the worklist. */
  lemma OrderChangesKey()
    ensures QualifiedKey(plugin, [Id(c)]) != QualifiedKey(plugin, [QualifiedKey(c, [])])
  {
    assert |QualifiedKey(c, [])| == |Id(c)| + 2;
    assert |QualifiedKey(plugin, [Id(c)])| == |Id(plugin)| + |Id(c)| + 2;
  }

  lemma ChainLookups(work: seq<(string, Package)>)
    requires work == [("app", app), ("c", c), ("plugin", plugin)]
    ensures work[1..] == [("c", c), ("plugin", plugin)] && work[1..][1..] == [("plugin", plugin)]
    ensures Lookup(work, "plugin") == Some(plugin) && Lookup(work, "c") == Some(c)
  {
    assert work[1..][1..] == [("plugin", plugin)];
    assert Lookup(work[1..][1..], "plugin") == Some(plugin);
    assert Lookup(work[1..], "plugin") == Some(plugin);
    assert Lookup(work[1..], "c") == Some(c);
  }

  /** `app`'s one peer `plugin`, a sibling with peers of its own: deferred
      until `plugin` is recorded. */
  lemma AppPeers(host: Host, work: seq<(string, Package)>, acc: map<string, string>)
    requires Lookup(work, "plugin") == Some(plugin)
    ensures EvalPeers(work, map[], acc, host, app.peerDependencies)
      == if Truthy(acc, "plugin") then Qualified([acc["plugin"]]) else Deferred
  {
    assert app.peerDependencies[1..] == [];
  }

  /** The first pass of the chain after `app` has been deferred. */
  lemma ChainFirstPassRest(host: Host, work: seq<(string, Package)>)
    requires work == [("app", app), ("c", c), ("plugin", plugin)]
    ensures var cKey := QualifiedKey(c, []);
      Pass(work, map[], host, map[], work[1..])
        == PassDone([], map["c" := cKey, "plugin" := QualifiedKey(plugin, [cKey])])
  {
    var cKey := QualifiedKey(c, []);
    var acc1 := map["c" := cKey];
    var acc2 := acc1["plugin" := QualifiedKey(plugin, [cKey])];
    ChainLookups(work);
    PluginPeers(host, work, acc1);
    assert [("plugin", plugin)][1..] == [];
    assert Pass(work, map[], host, acc1, [("plugin", plugin)]) == Pass(work, map[], host, acc2, []);
  }

  /** In the first pass of the chain `app` → `plugin` → `c`, `app` is deferred
      and the other two are recorded. */
  lemma ChainFirstPass(host: Host, work: seq<(string, Package)>)
    requires work == [("app", app), ("c", c), ("plugin", plugin)]
    ensures var cKey := QualifiedKey(c, []);
      Pass(work, map[], host, map[], work)
        == PassDone([("app", app)], map["c" := cKey, "plugin" := QualifiedKey(plugin, [cKey])])
  {
    ChainLookups(work);
    AppPeers(host, work, map[]);
    ChainFirstPassRest(host, work);
  }

  /** In the second pass `app` is keyed by `plugin`'s recorded key. */
  lemma ChainSecondPass(host: Host, work: seq<(string, Package)>)
    requires work == [("app", app), ("c", c), ("plugin", plugin)]
    ensures var pluginKey := QualifiedKey(plugin, [QualifiedKey(c, [])]);
      var first := map["c" := QualifiedKey(c, []), "plugin" := pluginKey];
      Pass(work, map[], host, first, [("app", app)])
        == PassDone([], first["app" := QualifiedKey(app, [pluginKey])])
  {
    var pluginKey := QualifiedKey(plugin, [QualifiedKey(c, [])]);
    var first := map["c" := QualifiedKey(c, []), "plugin" := pluginKey];
    ChainLookups(work);
    AppPeers(host, work, first);
    assert [("app", app)][1..] == [];
  }
}

=== FILE: sorting.dfy ===
/** The name order of a qualification worklist: `Object.entries(resolvedMap)`
    sorted with `([a], [b]) => a.localeCompare(b)`. */
module Sorting {
  import opened Packages

  /** Names strictly ascend in collation order along the entries. */
  predicate SortedByName(host: Host, entries: seq<(string, Package)>) {
    forall i, j :: 0 <= i < j < |entries| ==> host.Before(entries[i].0, entries[j].0)
  }

  function Insert(host: Host, e: (string, Package), sorted: seq<(string, Package)>): (r: seq<(string, Package)>)
    requires ValidHost(host)
    requires SortedByName(host, sorted) && e.0 !in NamesOf(sorted)
    ensures SortedByName(host, r)
    ensures multiset(r) == multiset(sorted) + multiset{e}
    ensures forall x :: x in r <==> x == e || x in sorted
  {
    if sorted == [] then [e]
    else if host.Before(e.0, sorted[0].0) then [e] + sorted
    else
      assert e.0 != sorted[0].0;
      assert host.Before(sorted[0].0, e.0);
      NamesOfSubset(sorted[1..], sorted);
      var rest := Insert(host, e, sorted[1..]);
      assert sorted == [sorted[0]] + sorted[1..];
      assert forall x :: x in rest ==> host.Before(sorted[0].0, x.0);
      [sorted[0]] + rest
  }

  /** The head's name is not among the tail's, and the tail is still distinct. */
  lemma DistinctTail(entries: seq<(string, Package)>)
    requires |entries| > 0 && DistinctNames(entries)
    ensures DistinctNames(entries[1..])
    ensures entries[0].0 !in NamesOf(entries[1..])
  {
    forall n | n in NamesOf(entries[1..]) ensures n != entries[0].0 {
      var k :| 0 <= k < |entries[1..]| && entries[1..][k].0 == n;
      assert entries[k + 1].0 == n;
    }
  }

  /** The worklist order: the same entries, by ascending name. */
  function SortByName(host: Host, entries: seq<(string, Package)>): (r: seq<(string, Package)>)
    requires ValidHost(host)
    requires DistinctNames(entries)
    ensures SortedByName(host, r)
    ensures multiset(r) == multiset(entries)
    ensures forall x :: x in r <==> x in entries
  {
    if entries == [] then []
    else
      DistinctTail(entries);
      var rest := SortByName(host, entries[1..]);
      InsertHead(host, entries, rest);
      Insert(host, entries[0], rest)
  }

  /** Inserting the head into the sorted tail gives back the same entries. */
  lemma InsertHead(host: Host, entries: seq<(string, Package)>, rest: seq<(string, Package)>)
    requires ValidHost(host)
    requires |entries| > 0 && DistinctNames(entries)
    requires SortedByName(host, rest)
    requires multiset(rest) == multiset(entries[1..])
    requires forall x :: x in rest <==> x in entries[1..]
    ensures entries[0].0 !in NamesOf(rest)
    ensures multiset(Insert(host, entries[0], rest)) == multiset(entries)
    ensures forall x :: x in Insert(host, entries[0], rest) <==> x in entries
  {
    DistinctTail(entries);
    NamesOfSubset(rest, entries[1..]);
    assert entries == [entries[0]] + entries[1..];
  }

  lemma SortedCons(host: Host, e: (string, Package), entries: seq<(string, Package)>)
    requires SortedByName(host, entries)
    requires forall x :: x in entries ==> host.Before(e.0, x.0)
    ensures SortedByName(host, [e] + entries)
  {
    var s := [e] + entries;
    assert forall j :: 1 <= j < |s| ==> s[j] == entries[j - 1];
  }

  /** Strictly ascending names are distinct. */
  lemma SortedDistinct(host: Host, entries: seq<(string, Package)>)
    requires SortedByName(host, entries)
    ensures DistinctNames(entries)
  {
  }
}

=== FILE: versions.dfy ===
/** Version selection: the newest package of a given name inside a semver range. */
module Versions {
  import opened Outcomes
  import opened Packages

  predicate Matches(p: Package, name: string, range: string, host: Host) {
    p.name == name && host.satisfies(p.version, range)
  }

  /** Both filters of `resolveMatchingPackages`, in package-list order. */
  function Candidates(packages: seq<Package>, name: string, range: string, host: Host): (r: seq<Package>)
    ensures forall p :: p in r <==> p in packages && Matches(p, name, range, host)
  {
    if packages == [] then []
    else
      var rest := Candidates(packages[1..], name, range, host);
      assert forall p :: p in packages <==> p == packages[0] || p in packages[1..];
      if Matches(packages[0], name, range, host) then [packages[0]] + rest else rest
  }

  /** Position of the first candidate with a maximal version: the head of a
      stable sort by descending version. */
  function Newest(candidates: seq<Package>, host: Host): (i: nat)
    requires |candidates| > 0
    ensures i < |candidates|
    ensures forall j :: 0 <= j < |candidates| ==> host.AtMost(candidates[j].version, candidates[i].version)
    ensures forall j :: 0 <= j < i ==> !host.AtMost(candidates[i].version, candidates[j].version)
  {
    if |candidates| == 1 then 0
    else
      var last := |candidates| - 1;
      var k := Newest(candidates[..last], host);
      if !host.AtMost(candidates[last].version, candidates[k].version) then last else k
  }

  /** `resolvePackage`: the newest package of that name inside the range, or
      an error when there is none. */
  function ResolvePackage(packages: seq<Package>, name: string, range: string, host: Host): (r: Result<Package>)
    ensures r.Failure? <==> forall p :: p in packages ==> !Matches(p, name, range, host)
    ensures r.Failure? ==> r.error == NoMatchingVersion(name, range)
    ensures r.Success? ==> r.value in packages && Matches(r.value, name, range, host)
    ensures r.Success? ==>
      forall p :: p in packages && Matches(p, name, range, host) ==> host.AtMost(p.version, r.value.version)
    ensures r.Success? ==>
      var c := Candidates(packages, name, range, host);
      forall j :: 0 <= j < |c| && host.AtMost(r.value.version, c[j].version) ==> r.value in c[..j + 1]
    ensures r.Success? ==>
      forall j :: (0 <= j < |packages| && Matches(packages[j], name, range, host)
                   && host.AtMost(r.value.version, packages[j].version)) ==> r.value in packages[..j + 1]
  {
    var c := Candidates(packages, name, range, host);
    if |c| == 0 then
      assert forall p :: p in packages ==> !Matches(p, name, range, host) by {
        forall p | p in packages ensures !Matches(p, name, range, host) {
          assert p !in c;
        }
      }
      Failure(NoMatchingVersion(name, range))
    else
      var i := Newest(c, host);
      assert c[i] in c;
      assert c[i] in packages && Matches(c[i], name, range, host);
      assert forall j :: 0 <= j < |c| && host.AtMost(c[i].version, c[j].version) ==> c[i] in c[..j + 1] by {
        forall j | 0 <= j < |c| && host.AtMost(c[i].version, c[j].version)
          ensures c[i] in c[..j + 1]
        {
          assert i <= j;
          assert c[..j + 1][i] == c[i];
        }
      }
      assert forall j :: (0 <= j < |packages| && Matches(packages[j], name, range, host)
                          && host.AtMost(c[i].version, packages[j].version)) ==> c[i] in packages[..j + 1] by {
        forall j | 0 <= j < |packages| && Matches(packages[j], name, range, host)
          && host.AtMost(c[i].version, packages[j].version)
          ensures c[i] in packages[..j + 1]
        {
          var k := CandidatesInOrder(packages, name, range, host, j);
          assert i <= k;
        }
      }
      Success(c[i])
  }

  lemma PrefixOfTail(packages: seq<Package>, j: nat)
    requires 0 < j < |packages|
    ensures forall x :: x in packages[1..][..j] ==> x in packages[..j + 1]
  {
    forall x | x in packages[1..][..j] ensures x in packages[..j + 1] {
      var a :| 0 <= a < j && packages[1..][..j][a] == x;
      assert packages[..j + 1][a + 1] == x;
    }
  }

  /** Filtering keeps the list order: a matching package sits in the candidates
      after nothing that comes later in the package list. */
  lemma {:induction false} CandidatesInOrder(packages: seq<Package>, name: string, range: string, host: Host, j: nat)
    returns (k: nat)
    requires j < |packages| && Matches(packages[j], name, range, host)
    ensures var c := Candidates(packages, name, range, host);
      k < |c| && c[k] == packages[j] && forall m :: 0 <= m <= k ==> c[m] in packages[..j + 1]
    decreases |packages|
  {
    var c := Candidates(packages, name, range, host);
    var rest := Candidates(packages[1..], name, range, host);
    if j == 0 {
      assert c == [packages[0]] + rest;
      assert packages[..1][0] == packages[0];
      k := 0;
    } else {
      var k' := CandidatesInOrder(packages[1..], name, range, host, j - 1);
      PrefixOfTail(packages, j);
      if Matches(packages[0], name, range, host) {
        assert c == [packages[0]] + rest;
        assert packages[..j + 1][0] == packages[0];
        forall m | 0 <= m <= k' + 1 ensures c[m] in packages[..j + 1] {
          if m > 0 {
            assert c[m] == rest[m - 1];
          }
        }
        k := k' + 1;
      } else {
        k := k';
      }
    }
  }

  /** The newest of several matching versions is chosen, not the newest overall. */
  lemma NewestInRange(packages: seq<Package>, name: string, range: string, host: Host, p: Package, q: Package)
    requires p in packages && Matches(p, name, range, host)
    requires q in packages && q.name == name && !host.satisfies(q.version, range)
    ensures ResolvePackage(packages, name, range, host).Success?
    ensures ResolvePackage(packages, name, range, host).value != q
  {
  }

  /** An entry of a resolved object: some declared range of that name resolves to it. */
  ghost predicate ResolvedFrom(packages: seq<Package>, deps: seq<(string, string)>, host: Host, e: (string, Package))
  {
    exists range :: (e.0, range) in deps && ResolvePackage(packages, e.0, range, host) == Success(e.1)
  }

  lemma NamesOfPrefix<V>(entries: seq<(string, V)>, i: nat)
    requires i < |entries|
    ensures NamesOf(entries[..i + 1]) == NamesOf(entries[..i]) + {entries[i].0}
  {
    var a := entries[..i + 1];
    var b := entries[..i];
    assert forall k :: 0 <= k < i ==> a[k] == b[k];
    assert a[i] == entries[i];
  }

  /** One step of the `reduce` keeps what `ResolveFrom` asks of the object built so far. */
  lemma ResolveStep(packages: seq<Package>, deps: seq<(string, string)>, host: Host, i: nat,
                    acc: seq<(string, Package)>, p: Package)
    requires i < |deps|
    requires DistinctNames(acc) && NamesOf(acc) == NamesOf(deps[..i])
    requires forall e :: e in acc ==> ResolvedFrom(packages, deps, host, e) && e.1.name == e.0
    requires forall j :: 0 <= j < i ==> ResolvePackage(packages, deps[j].0, deps[j].1, host).Success?
    requires ResolvePackage(packages, deps[i].0, deps[i].1, host) == Success(p)
    ensures DistinctNames(Put(acc, deps[i].0, p))
    ensures NamesOf(Put(acc, deps[i].0, p)) == NamesOf(deps[..i + 1])
    ensures forall e :: e in Put(acc, deps[i].0, p) ==> ResolvedFrom(packages, deps, host, e) && e.1.name == e.0
    ensures forall j :: 0 <= j < i + 1 ==> ResolvePackage(packages, deps[j].0, deps[j].1, host).Success?
  {
    NamesOfPrefix(deps, i);
    assert ResolvedFrom(packages, deps, host, (deps[i].0, p)) by {
      assert (deps[i].0, deps[i].1) in deps;
    }
  }

  /** The `reduce` of `resolveDependencies` from position `i` on, over the object built so far. */
  function ResolveFrom(packages: seq<Package>, deps: seq<(string, string)>, host: Host, i: nat, acc: seq<(string, Package)>)
    : (r: Result<seq<(string, Package)>>)
    requires i <= |deps|
    requires DistinctNames(acc) && NamesOf(acc) == NamesOf(deps[..i])
    requires forall e :: e in acc ==> ResolvedFrom(packages, deps, host, e) && e.1.name == e.0
    requires forall j :: 0 <= j < i ==> ResolvePackage(packages, deps[j].0, deps[j].1, host).Success?
    ensures r.Success? ==> DistinctNames(r.value) && NamesOf(r.value) == NamesOf(deps)
    ensures r.Success? ==> forall e :: e in r.value ==> ResolvedFrom(packages, deps, host, e) && e.1.name == e.0
    ensures r.Success? <==> forall j :: 0 <= j < |deps| ==> ResolvePackage(packages, deps[j].0, deps[j].1, host).Success?
    ensures r.Failure? ==>
      exists j :: 0 <= j < |deps| && ResolvePackage(packages, deps[j].0, deps[j].1, host) == Failure(r.error)
        && forall k :: 0 <= k < j ==> ResolvePackage(packages, deps[k].0, deps[k].1, host).Success?
    decreases |deps| - i
  {
    if i == |deps| then
      assert deps[..i] == deps;
      Success(acc)
    else
      match ResolvePackage(packages, deps[i].0, deps[i].1, host)
      case Failure(e) =>
        assert ResolvePackage(packages, deps[i].0, deps[i].1, host) == Failure(e);
        Failure(e)
      case Success(p) =>
        ResolveStep(packages, deps, host, i, acc, p);
        ResolveFrom(packages, deps, host, i + 1, Put(acc, deps[i].0, p))
  }

  /** `resolveDependencies`: every declared dependency resolved to its newest
      matching package, keyed by its name; the first unresolvable one throws. */
  function ResolveDependencies(packages: seq<Package>, deps: seq<(string, string)>, host: Host)
    : (r: Result<seq<(string, Package)>>)
    ensures r.Success? ==> DistinctNames(r.value) && NamesOf(r.value) == NamesOf(deps)
    ensures r.Success? ==> forall e :: e in r.value ==> ResolvedFrom(packages, deps, host, e) && e.1.name == e.0
    ensures r.Success? <==> forall j :: 0 <= j < |deps| ==> ResolvePackage(packages, deps[j].0, deps[j].1, host).Success?
    ensures r.Failure? ==>
      exists j :: 0 <= j < |deps| && ResolvePackage(packages, deps[j].0, deps[j].1, host) == Failure(r.error)
        && forall k :: 0 <= k < j ==> ResolvePackage(packages, deps[k].0, deps[k].1, host).Success?
  {
    assert NamesOf(deps[..0]) == {};
    ResolveFrom(packages, deps, host, 0, [])
  }

  /** The only error version selection reports is a missing match. */
  lemma ResolveDependenciesFails(packages: seq<Package>, deps: seq<(string, string)>, host: Host)
    requires ResolveDependencies(packages, deps, host).Failure?
    ensures ResolveDependencies(packages, deps, host).error.NoMatchingVersion?
  {
    var e := ResolveDependencies(packages, deps, host).error;
    var j :| 0 <= j < |deps| && ResolvePackage(packages, deps[j].0, deps[j].1, host) == Failure(e);
  }
}
